=== FILE: README.md ===
# ADSMS front-end rules in Dafny

ADSMS is the Academic Digital Signature Management System. Its React front
end works over mock data. It has no signing engine: nothing in it signs,
rejects or expires a request, derives a document's status, or checks a
certificate. What it does hold is a set of small, deterministic rules
inside its components. This project states those rules as pure Dafny
functions over immutable datatypes and proves what they guarantee.

The modules follow the components:

- `Types` (`types.dfy`): the closed enumerations and records of
  `src/types/adsms.ts`. Each enumeration (statuses, roles, document types,
  audit actions and resource kinds) has its wire string and a parser that
  inverts it.
- `Optional`, `Seqs` (`seqs.dfy`): an option type with JavaScript's
  parameter default, and JavaScript's array
  `filter`, `find`, `findIndex`, `some` and `slice(0, n)` as functions with
  contracts, plus lemmas about filtering.
- `Text` (`text.dfy`): ASCII upper- and lower-casing, `trim`, `split` and
  `join` on one character (with the split/join round trip), and decimal
  digits.
- `SignQueue` (`sign_queue.dfy`): the Sign page and the dashboard's
  "Awaiting Your Signature" panel. It covers which documents await a user,
  the user's pending slot, the turn rule with its quirk, and the slot tones.
- `Upload` (`upload.dfy`): the three-step upload wizard. It covers the
  PDF-only file slot, the ordered duplicate-free signer list, the step
  gating, and the unit choice of `formatFileSize`.
- `DocumentList`, `DocumentsPage` (`document_list.dfy`): the document
  list card (truncation to five, "View All", per-row counts, status badges,
  "Sign Now") and the documents page (per-user counter, status tabs).
- `Sidebar` (`sidebar.dfy`): the role filter on the navigation links, the
  active link, the pending badge and the collapse toggle.
- `AuditLabels`, `AuditLabelExamples` (`audit_labels.dfy`): the action
  labels of the activity log, the per-action icon and colour, and the
  optional IP address.
- `Verification` (`verification.dfy`): the verification panel. This covers
  the blank-input guard, the disabled button, the mock result and the
  result card.

The mock data module (`@/data/mockData`) is not part of this model. Its
documents, current user and audit logs become parameters. `Date` values
become opaque integer timestamps, and `new Date()` becomes a `now`
parameter.

The turn rule is modelled exactly as written. The Sign page compares the
index of the first pending slot with the index of the user's first slot,
whatever that slot's status. So a user whose earliest slot is already
completed never gets the turn, even when a later slot of theirs is the
first pending one. `SignQueue.EarlierFinishedSlotBlocksTurn` proves this
and `SignQueue.BlockedTurnExample` exhibits it.

The verification handler waits 1.5 seconds between its two state updates.
The model splits it into two events: the click and the timer firing. The
identifier captured at the click travels between them as `inFlight`. So
the result names the identifier as it was when the button was clicked,
untrimmed, even if the input changed in the meantime.

## Model

| member | source | states |
|---|---|---|
| Types.ParseDocumentStatus | src/types/adsms.ts:5 | Exactly the five document status strings parse; each parses back to the status it names |
| Types.ParseSignatureStatus | src/types/adsms.ts:7 | Exactly the four slot status strings parse; "draft" and "signed" are not slot statuses |
| Types.ParseCertificateStatus | src/types/adsms.ts:17 | The certificate status strings (shared by users and certificates) parse back to their status and nothing else parses |
| Types.ParseUserRole | src/types/adsms.ts:3 | Exactly the four role strings parse, each to its role |
| Types.ParseAuditAction | src/types/adsms.ts:80-94 | Exactly the fourteen action strings parse, each to its action |
| Types.ParseDocumentType | src/types/adsms.ts:41-48 | Exactly the seven document type strings parse, each to its type |
| Types.ParseResourceType | src/types/adsms.ts:73 | Exactly the five resource kinds of an audit entry parse, each to its kind |
| Types.AuditActionsAreFourteen | src/types/adsms.ts:80-94 | The action list has fourteen entries, holds every action, and no two share a name |
| Seqs.Filter | src/pages/Sign.tsx:20-23 | A filter keeps exactly the elements that satisfy the predicate, in their original order, and never lengthens the list |
| Seqs.FilterCounts | src/pages/Sign.tsx:20-23 | Every element that passes is kept exactly as often as it occurs, and nothing else is kept |
| Seqs.FilterLengthCountsIndices | src/pages/Documents.tsx:93 | A filter's length is the number of positions whose element passes |
| Seqs.Any | src/pages/Sign.tsx:22 | `some` holds iff some element satisfies the predicate |
| Seqs.FilterAppend | src/pages/Sign.tsx:20-23 | Filtering a concatenation is concatenating the filtered parts |
| Seqs.FilterMonotone | src/pages/Documents.tsx:23-26 | Filtering by a weaker predicate keeps at least as many elements |
| Seqs.FilterDisjointBound | src/components/dashboard/DocumentList.tsx:61-62 | Two predicates that never hold together keep at most the whole list between them |
| Seqs.FilterPartition | src/components/dashboard/PendingSignatures.tsx:61 | A predicate and its negation split the list exactly |
| Seqs.FilterKeepsDistinct | src/components/layout/Sidebar.tsx:54-56 | Filtering keeps a list's keys pairwise distinct |
| Seqs.FindIndex | src/pages/Sign.tsx:58-59 | `findIndex` returns the first index satisfying the predicate, or -1 exactly when none does |
| Seqs.Find | src/pages/Sign.tsx:55-57 | `find` returns the element at the first satisfying index, or nothing exactly when none satisfies |
| Seqs.Take | src/components/dashboard/DocumentList.tsx:44 | `slice(0, n)` is the prefix of length min(n, size) |
| Text.Trim | src/components/verification/VerificationPanel.tsx:29 | Trimming removes exactly the leading and trailing white space; the result is empty iff every character is white space |
| Text.SplitOfJoin | src/components/dashboard/AuditLogList.tsx:44-49 | Splitting words joined by a separator none of them contains gives the words back |
| Text.DecimalRoundTrip | src/components/documents/DocumentUpload.tsx:80 | The decimal digits of a byte count read back as that count |
| SignQueue.PendingDocs | src/pages/Sign.tsx:20-23 | A document is listed iff it is pending and has a pending slot of the user; order is kept, and each listed document appears as often as in the input |
| SignQueue.UserSignature | src/pages/Sign.tsx:55-57 | The user's signature is the first slot that is the user's and pending; it exists iff such a slot does |
| SignQueue.ListedTurnIndicesExist | src/pages/Sign.tsx:58-59 | On a listed document both compared indices are valid, so the rule never holds through -1 = -1 |
| SignQueue.TurnMeansFirstPendingSlotIsUsers | src/pages/Sign.tsx:55-59 | When it is the user's turn, the first pending slot is the user's, every earlier slot is finished, and that slot is the user's signature |
| SignQueue.UserSignatureAtFirstPending | src/pages/Sign.tsx:55-57 | A pending slot of the user with no pending slot before it is the one shown as the user's signature |
| SignQueue.TurnCharacterization | src/pages/Sign.tsx:58-59 | On a listed document the rule holds iff the first pending slot is the user's and the user has no earlier slot |
| SignQueue.EarlierFinishedSlotBlocksTurn | src/pages/Sign.tsx:58-59 | If the user's earliest slot is no longer pending, the rule never grants the turn |
| SignQueue.BlockedTurnExample | src/pages/Sign.tsx:58-59 | On a concrete document the user's slot is the first pending one, yet the rule denies the turn |
| SignQueue.ListedDocsAwait | src/pages/Sign.tsx:20-23 | Every listed document awaits the user |
| SignQueue.NothingListedIffNoneAwaits | src/pages/Sign.tsx:42-52 | The listing is empty iff no document awaits the user |
| SignQueue.AvatarTone | src/components/dashboard/PendingSignatures.tsx:96-99 | The avatar colour goes by priority: completed, then the current user, then muted |
| SignQueue.ChipTone | src/pages/Sign.tsx:111-115 | The chip is highlighted iff the slot is the user's and pending; a highlighted chip has the accent avatar |
| SignQueue.Flow | src/pages/Sign.tsx:104-136 | One flow step per slot, in order, carrying that slot's chip and avatar tones, with an arrow after every step but the last |
| SignQueue.Card | src/pages/Sign.tsx:54-156 | The user's signature is the document's first pending slot of the user; the turn flag (accent border), the sign button and the "Your Turn" badge all follow the turn rule and the waiting message shows exactly otherwise; the flow covers every slot |
| SignQueue.CardsFor | src/pages/Sign.tsx:54-59 | Card k is the card of listed document k, so every listed card follows the turn rule |
| SignQueue.SignPageFor | src/pages/Sign.tsx:20-59 | The page's counter equals the number of cards; card k is the card of the k-th listed document, which awaits the user; "All Caught Up!" shows iff there are none |
| SignQueue.OtherSigners | src/components/dashboard/PendingSignatures.tsx:61 | The other signers are the slots not of the user, in order; with the user's slots they make up every slot |
| SignQueue.PanelCardFor | src/components/dashboard/PendingSignatures.tsx:57-108 | The user's signature is the document's first pending slot of the user, the other signers are everyone else's slots in order, and each slot has its avatar colour |
| SignQueue.PanelFor | src/components/dashboard/PendingSignatures.tsx:28-58 | The empty state shows iff nothing is listed; otherwise the badge counts the cards, and card k is the panel card of the k-th listed document |
| SignQueue.EmptyStatesAgree | src/components/dashboard/PendingSignatures.tsx:23-45 | The panel and the Sign page show their empty states for the same inputs, and their counts agree |
| Upload.IsSelected | src/components/documents/DocumentUpload.tsx:70 | The `find` by id succeeds iff some listed signer has that id |
| Upload.AddSigner | src/components/documents/DocumentUpload.tsx:69-73 | A listed id leaves the list alone; a new signer is appended at the end; distinct ids stay distinct |
| Upload.RemoveSigner | src/components/documents/DocumentUpload.tsx:75-77 | Every entry with the id goes and every other entry stays, in order and as often as before; an absent id changes nothing; distinct ids stay distinct |
| Upload.RemoveDeletesOneEntry | src/components/documents/DocumentUpload.tsx:75-77 | With distinct ids, removing an entry's id removes exactly that entry |
| Upload.AddThenRemoveRestores | src/components/documents/DocumentUpload.tsx:69-77 | Adding an unlisted signer and removing it restores the list |
| Upload.AvailableUsers | src/components/documents/DocumentUpload.tsx:307 | The offered users are exactly those not yet selected, in offer order, and share no id with the selection |
| Upload.NoSelectionOffersAll | src/components/documents/DocumentUpload.tsx:307 | With no signer selected every user is offered, in order |
| Upload.OfferedUsersBeforeSelection | src/components/documents/DocumentUpload.tsx:37-307 | On the fresh wizard the four built-in users all have an "Add Signer" button, in order |
| Upload.AcceptFile | src/components/documents/DocumentUpload.tsx:53-67 | The first offered file is stored iff it is a PDF; otherwise the slot keeps what it had |
| Upload.FormatFileSize | src/components/documents/DocumentUpload.tsx:79-83 | The unit is B below 1024 bytes, KB below 1024², MB otherwise; the B text is the count in decimal without leading zeros, followed by " B" |
| Upload.Apply | src/components/documents/DocumentUpload.tsx:122-329 | Only Continue and Back move the step: by one at most, forward only through an enabled Continue, and Back never forward; each field changes only on the step showing its control; each control has its effect (file slot via AcceptFile, signers via AddSigner and RemoveSigner, field edits); the invariant is kept |
| Upload.FileAction | src/components/documents/DocumentUpload.tsx:53-141 | On step 1 dragging sets the highlight, a drop or selection goes through AcceptFile (selection only while the slot is empty), and clearing empties the slot; on other steps nothing changes |
| Upload.DetailsAction | src/components/documents/DocumentUpload.tsx:204-226 | On step 2 the title, type and description take the typed value; on other steps nothing changes |
| Upload.SignerAction | src/components/documents/DocumentUpload.tsx:292-312 | On step 3 the add and remove buttons apply AddSigner and RemoveSigner, keeping ids distinct; on other steps nothing changes |
| Upload.Navigate | src/components/documents/DocumentUpload.tsx:170-325 | Continue advances one step exactly when the current step's gate is open; Back goes back one step; only the step changes |
| Upload.RunKeepsInvariant | src/components/documents/DocumentUpload.tsx:45-77 | From the initial state, the file held is a PDF, steps 2 and 3 need a file, step 3 needs a title, and signer ids stay distinct |
| Upload.SendRequiresCompleteWizard | src/components/documents/DocumentUpload.tsx:328-329 | An enabled Send on a reachable step 3 means a PDF, a title and a non-empty duplicate-free signer list |
| DocumentList.Props | src/components/dashboard/DocumentList.tsx:43 | The defaults are "Recent Documents" and not showing all; given values are kept |
| DocumentList.DisplayDocs | src/components/dashboard/DocumentList.tsx:44 | The shown documents are a prefix of the list: all of them, or the first min(5, n) |
| DocumentList.ViewAllIffTruncated | src/components/dashboard/DocumentList.tsx:50 | "View All" shows iff the card hides some documents; otherwise everything is shown |
| DocumentList.StatusConfig | src/components/dashboard/DocumentList.tsx:31-41 | Every status has a badge whose label is its capitalised name; only rejected is destructive; draft and expired are secondary |
| DocumentList.StatusLabelsDistinct | src/components/dashboard/DocumentList.tsx:31-41 | Different statuses have different badge labels |
| DocumentList.RowFor | src/components/dashboard/DocumentList.tsx:59-115 | The row shows its own document; the counts are those of pending and completed slots and never exceed the slot count, so k/n has k ≤ n; "Sign Now" shows iff the document is pending |
| DocumentList.ListCardFor | src/components/dashboard/DocumentList.tsx:43-62 | One row per displayed document, each the row of the document at that position; the row count is that of the displayed documents; "View All" exactly under its condition, i.e. when rows were cut |
| DocumentsPage.Tab | src/pages/Documents.tsx:103-123 | A status tab lists exactly the documents with that status, in order, each as often as it occurs |
| DocumentsPage.PendingTabBadge | src/pages/Documents.tsx:93 | The Pending badge is the number of positions in the list holding a pending document |
| DocumentsPage.PendingCountIsIndexCount | src/pages/Documents.tsx:93 | The Pending tab has one entry per position of a pending document |
| DocumentsPage.UserPendingCount | src/pages/Documents.tsx:23-26 | The per-user counter is the size of the signing listing and never exceeds the Pending badge |
| DocumentsPage.TabsDisjoint | src/pages/Documents.tsx:100-123 | No document is on two status tabs; draft and expired documents are on none |
| DocumentsPage.TabsCoverStatuses | src/pages/Documents.tsx:103-123 | The three status tabs together count exactly the pending, signed and rejected documents |
| Sidebar.FilteredNavItems | src/components/layout/Sidebar.tsx:54-56 | A link is shown iff it has no role list or its list holds the role; order is kept |
| Sidebar.VisibleLinksPerRole | src/components/layout/Sidebar.tsx:39-56 | An administrator sees all eight links; any other role sees six, in order |
| Sidebar.AdminPagesHidden | src/components/layout/Sidebar.tsx:45-46 | The Users and Certificates links are shown iff the role is administrator |
| Sidebar.OthersSeeOpenLinksOnly | src/components/layout/Sidebar.tsx:54-56 | A non-administrator sees only links without a role list |
| Sidebar.NavHrefsDistinct | src/components/layout/Sidebar.tsx:39-48 | No two links share an address |
| Sidebar.EntryFor | src/components/layout/Sidebar.tsx:96-135 | A link is active iff the path is its address, labelled iff expanded, and badged iff it is "Sign Documents" with a positive count, showing that count |
| Sidebar.SidebarFor | src/components/layout/Sidebar.tsx:50-61 | The width follows the collapse state, the entries follow the filtered links, and an absent count shows no badge |
| Sidebar.AtMostOneActive | src/components/layout/Sidebar.tsx:96 | Whatever the path, at most one link is active |
| Sidebar.AtMostOneBadge | src/components/layout/Sidebar.tsx:97 | At most one link carries the badge |
| Sidebar.ToggleCollapse | src/components/layout/Sidebar.tsx:182 | The toggle always changes the width, to the collapsed one iff it was expanded |
| Sidebar.ToggleTwiceRestores | src/components/layout/Sidebar.tsx:182 | Two toggles restore the state and the width |
| AuditLabels.LabelFromAt | src/components/dashboard/AuditLogList.tsx:44-49 | The character-wise reference turns underscores into spaces and upper-cases exactly the first character of each word |
| AuditLabels.PipelineIsReference | src/components/dashboard/AuditLogList.tsx:44-49 | Split, capitalise each word and join equals the character-wise reference |
| AuditLabels.LabelPointwise | src/components/dashboard/AuditLogList.tsx:44-49 | The label is as long as the name, and each position is a space, an upper-cased word start, or the character unchanged |
| AuditLabels.LabelHasNoUnderscore | src/components/dashboard/AuditLogList.tsx:44-49 | A label contains no underscore |
| AuditLabels.LabelWords | src/components/dashboard/AuditLogList.tsx:44-49 | For a name without spaces, the label's spaces sit exactly at the underscores, so it has one word per piece |
| AuditLabels.LabelRoundTrip | src/components/dashboard/AuditLogList.tsx:44-49 | Reading the label of a lower snake case name back gives the name |
| AuditLabels.ActionNamesAreLowerSnake | src/types/adsms.ts:80-94 | Every action's name is lower snake case |
| AuditLabels.ActionLabel | src/components/dashboard/AuditLogList.tsx:87 | An action's label has its name's length; each character is a space for an underscore, upper-cased at the start of a word, copied otherwise; it reads back to the name |
| AuditLabels.ActionLabelsRoundTrip | src/components/dashboard/AuditLogList.tsx:87 | Every label parses back to its action, so no two actions share a label |
| AuditLabels.LabelOfJoinedWords | src/components/dashboard/AuditLogList.tsx:44-49 | Underscore-joined words label as the same words capitalised and space-joined |
| AuditLabels.ActionConfig | src/components/dashboard/AuditLogList.tsx:23-42 | Every action has a style; exactly deletions and rejections are destructive with the cross icon; signatures use the pen, log-ins and log-outs the log-in icon; only revocation warns |
| AuditLabels.MetaFor | src/components/dashboard/AuditLogList.tsx:86-93 | The meta line's text is the action's label, and the address shows iff one is present and not empty |
| AuditLabels.ActivityCardFor | src/components/dashboard/AuditLogList.tsx:51-91 | The height defaults to 400px; one entry per log, in order, with its action's style, the icon colour and wash of that style's tone, and its meta line |
| AuditLabelExamples.UserLoginExample | src/components/dashboard/AuditLogList.tsx:44-49 | `user_login` is labelled "User Login" |
| AuditLabelExamples.SystemConfigChangedExample | src/components/dashboard/AuditLogList.tsx:44-49 | `system_config_changed` is labelled "System Config Changed" |
| Verification.MockResult | src/components/verification/VerificationPanel.tsx:37-49 | The result is always valid and untampered, names the identifier given, and is stamped with the current time |
| Verification.BeginVerify | src/components/verification/VerificationPanel.tsx:28-31 | A blank input changes nothing; otherwise the check starts for the input as typed and any earlier result stays |
| Verification.FinishVerify | src/components/verification/VerificationPanel.tsx:34-51 | When the timer fires, the result for the captured identifier replaces any earlier one and the check ends |
| Verification.Step | src/components/verification/VerificationPanel.tsx:74-79 | Typing sets the input; a click does nothing while the button is disabled and otherwise starts a check |
| Verification.RunKeepsInvariant | src/components/verification/VerificationPanel.tsx:24-51 | From any state satisfying it, a check runs exactly while a handler waits, and any result is valid, untampered and for a non-blank identifier |
| Verification.ResultCardFor | src/components/verification/VerificationPanel.tsx:118-187 | The heading is "Document Verified" iff valid and "Verification Failed" iff not; the integrity banner shows iff no tampering |
| Verification.PanelCard | src/components/verification/VerificationPanel.tsx:113 | A card shows iff there is a result |
| Verification.FailureNeverShown | src/components/verification/VerificationPanel.tsx:37-49 | Whatever the user does, a card on screen says "Document Verified" with the integrity banner |
| Verification.ResultKeepsClickedIdentifier | src/components/verification/VerificationPanel.tsx:28-49 | The result names the identifier as clicked, even if the input changes before the timer fires |
| Verification.BlankAndPaddedInputs | src/components/verification/VerificationPanel.tsx:29-39 | White space alone starts nothing; a padded identifier is reported untrimmed |

## Left out

- Rendering: JSX layout, Tailwind class strings beyond the colour family, icons beyond their identity, and framer-motion animation.
- Upload.FormatFileSize: the KB and MB texts divide and call `toFixed(1)` in floating point. Only their unit is modelled; the byte text is modelled exactly.
- Date formatting with date-fns (`format`, `formatDistanceToNow`) and the `Date` values themselves, which are opaque timestamps here.
- The mock data module `@/data/mockData` is not part of this model. Documents, the current user and audit logs become parameters. The display text of `documentTypeLabels` (the type caption on list rows and sign cards) is left out with the rest of the rendering.
- Verification.Step: the 1.5-second `setTimeout` is modelled as a separate timer event, with no notion of elapsed time.
- AuditLabels.FormatLabel: `toUpperCase` is full Unicode in the source and ASCII-only here. Every action name is ASCII, so the action labels are unaffected.
- The pages Index, Audit and Verify, and the AppLayout and StatsCards components. They repeat the pending-count filter or show static tables, and Audit's search and select controls filter nothing.
- A signing engine: sign, reject and expire transitions, status derivation and certificate checks. The source has none, and `currentSignerIndex` is declared but never used, so the model carries it as an untouched field.
- Upload wizard fields that only display (file name, e-mail, description) are carried but nothing is proved about their text. The "Send for Signatures" button has no handler in the source, so sending does nothing beyond its enabled state.
- Concurrency, I/O and the network: the components have none.

=== FILE: audit_labels.dfy ===
/** The activity log card (src/components/dashboard/AuditLogList.tsx): the
    human-readable label of an audit action, the per-action icon and colour,
    and the metadata line under each entry. */
module AuditLabels {
  import opened Optional
  import opened Types
  import opened Text

  /** `Capitalize` applied to every word. */
  function CapitalizeAll(ws: seq<string>): (r: seq<string>)
    ensures |r| == |ws|
    ensures forall k :: 0 <= k < |r| ==> r[k] == Capitalize(ws[k])
  {
    seq(|ws|, k requires 0 <= k < |ws| => Capitalize(ws[k]))
  }

  /** `formatActionLabel`: split on `_`, capitalise each piece, join with
      single spaces. */
  function FormatLabel(s: string): string {
    Join(CapitalizeAll(Split(s, '_')), ' ')
  }

  /** A character-by-character reference for the label: an underscore
      becomes a space, and a character that starts a word (the first one
      when `atStart`, or one right after an underscore) is upper-cased. */
  function LabelFrom(s: string, atStart: bool): (r: string)
    ensures |r| == |s|
  {
    if |s| == 0 then ""
    else if s[0] == '_' then [' '] + LabelFrom(s[1..], true)
    else [if atStart then ToUpperAscii(s[0]) else s[0]] + LabelFrom(s[1..], false)
  }

  /** Whether position `i` of `s` begins a word. */
  predicate StartsWord(s: string, i: int, atStart: bool)
    requires 0 <= i < |s|
  {
    if i == 0 then atStart else s[i - 1] == '_'
  }

  /** What the reference puts at each position. */
  lemma {:induction false} LabelFromAt(s: string, atStart: bool, i: int)
    requires 0 <= i < |s|
    ensures LabelFrom(s, atStart)[i] ==
      if s[i] == '_' then ' '
      else if StartsWord(s, i, atStart) then ToUpperAscii(s[i])
      else s[i]
  {
    if i > 0 {
      LabelFromAt(s[1..], s[0] == '_', i - 1);
    }
  }

  /** The words after the first, capitalised; the first as it is. */
  function CapitalizeRest(ws: seq<string>): seq<string>
    requires |ws| > 0
  {
    [ws[0]] + CapitalizeAll(ws)[1..]
  }

  /** A leading empty piece (the name began with `_`) contributes a leading
      space, whether or not it is capitalised. */
  lemma EmptyPieceStep(rest: seq<string>)
    requires |rest| > 0
    ensures Join(CapitalizeAll([""] + rest), ' ') == [' '] + Join(CapitalizeAll(rest), ' ')
    ensures Join(CapitalizeRest([""] + rest), ' ') == [' '] + Join(CapitalizeAll(rest), ' ')
  {
    var caps := CapitalizeAll([""] + rest);
    assert caps == [""] + CapitalizeAll(rest);
    assert caps[1..] == CapitalizeAll(rest);
    assert CapitalizeRest([""] + rest) == caps;
  }

  /** A character prefixed to the first piece comes out first, upper-cased
      exactly when that piece is capitalised. */
  lemma LetterStep(c: char, rest: seq<string>)
    requires |rest| > 0
    ensures Join(CapitalizeAll([[c] + rest[0]] + rest[1..]), ' ')
         == [ToUpperAscii(c)] + Join(CapitalizeRest(rest), ' ')
    ensures Join(CapitalizeRest([[c] + rest[0]] + rest[1..]), ' ')
         == [c] + Join(CapitalizeRest(rest), ' ')
  {
    var ws := [[c] + rest[0]] + rest[1..];
    var tail := CapitalizeAll(rest)[1..];
    assert CapitalizeAll(ws) == [[ToUpperAscii(c)] + rest[0]] + tail;
    assert CapitalizeRest(ws) == [[c] + rest[0]] + tail;
    assert CapitalizeRest(rest) == [rest[0]] + tail;
    JoinConsHead(ToUpperAscii(c), rest[0], tail, ' ');
    JoinConsHead(c, rest[0], tail, ' ');
  }

  /** The split-capitalise-join pipeline computes the reference: with the
      first piece capitalised it is `LabelFrom(s, true)`, with the first
      piece left as it is, `LabelFrom(s, false)`. */
  lemma {:induction false} PipelineIsReference(s: string)
    ensures Join(CapitalizeAll(Split(s, '_')), ' ') == LabelFrom(s, true)
    ensures Join(CapitalizeRest(Split(s, '_')), ' ') == LabelFrom(s, false)
  {
    if |s| == 0 {
      assert Split(s, '_') == [""];
    } else {
      var rest := Split(s[1..], '_');
      PipelineIsReference(s[1..]);
      if s[0] == '_' {
        assert Split(s, '_') == [""] + rest;
        EmptyPieceStep(rest);
      } else {
        assert Split(s, '_') == [[s[0]] + rest[0]] + rest[1..];
        LetterStep(s[0], rest);
      }
    }
  }

  /** The character the label holds at position `i` of the name `s`. */
  function LabelCharAt(s: string, i: int): char
    requires 0 <= i < |s|
  {
    if s[i] == '_' then ' '
    else if i == 0 || s[i - 1] == '_' then ToUpperAscii(s[i])
    else s[i]
  }

  /** The label, position by position: it is as long as the name, every
      underscore becomes a space, the first character and every character
      after an underscore are upper-cased, and the rest are copied. */
  lemma LabelPointwise(s: string)
    ensures |FormatLabel(s)| == |s|
    ensures forall i :: 0 <= i < |s| ==> FormatLabel(s)[i] == LabelCharAt(s, i)
  {
    PipelineIsReference(s);
    forall i | 0 <= i < |s| ensures FormatLabel(s)[i] == LabelCharAt(s, i) {
      LabelFromAt(s, true, i);
    }
  }

  /** The label has no underscores. */
  lemma LabelHasNoUnderscore(s: string)
    ensures '_' !in FormatLabel(s)
  {
    LabelPointwise(s);
    forall i | 0 <= i < |s| ensures FormatLabel(s)[i] != '_' {
      assert s[i] != '_' ==> ToUpperAscii(s[i]) != '_';
    }
  }

  /** For a name without spaces, the label's spaces sit exactly where the
      underscores were, so it has one word per piece of the name. */
  lemma LabelWords(s: string)
    requires ' ' !in s
    ensures |FormatLabel(s)| == |s|
    ensures forall i :: 0 <= i < |s| ==> (FormatLabel(s)[i] == ' ' <==> s[i] == '_')
    ensures |Split(FormatLabel(s), ' ')| == |Split(s, '_')|
  {
    var f := FormatLabel(s);
    LabelPointwise(s);
    forall i | 0 <= i < |s| ensures f[i] == ' ' <==> s[i] == '_' {
      assert s[i] != ' ';
      assert s[i] != '_' ==> ToUpperAscii(s[i]) != ' ';
    }
    CountPointwise(f, s, ' ', '_');
  }

  /** Reads a label back: lower-case it and turn spaces into underscores. */
  function LabelToName(text: string): (r: string)
    ensures |r| == |text|
    ensures forall i :: 0 <= i < |r| ==> r[i] == if text[i] == ' ' then '_' else ToLowerAscii(text[i])
  {
    seq(|text|, i requires 0 <= i < |text| => if text[i] == ' ' then '_' else ToLowerAscii(text[i]))
  }

  /** A name written in lower snake case: no spaces and no upper-case
      letters. */
  predicate IsLowerSnake(s: string) {
    forall i :: 0 <= i < |s| ==> s[i] != ' ' && !IsUpperAscii(s[i])
  }

  /** Formatting loses nothing on a lower snake case name: reading the label
      back gives the name. */
  lemma LabelRoundTrip(s: string)
    requires IsLowerSnake(s)
    ensures LabelToName(FormatLabel(s)) == s
  {
    LabelPointwise(s);
    var f := FormatLabel(s);
    forall i | 0 <= i < |s| ensures LabelToName(f)[i] == s[i] {
      if s[i] != '_' {
        assert !IsUpperAscii(s[i]) && s[i] != ' ';
        assert f[i] == ToUpperAscii(s[i]) || f[i] == s[i];
        assert f[i] != ' ';
        assert ToLowerAscii(ToUpperAscii(s[i])) == s[i];
        assert ToLowerAscii(s[i]) == s[i];
      }
    }
  }

  /** Every audit action's name is lower snake case. */
  lemma ActionNamesAreLowerSnake(a: AuditAction)
    ensures IsLowerSnake(AuditActionName(a))
  {
    match a
    case DocumentUploaded => LowerSnakeByChars("document_uploaded");
    case DocumentViewed => LowerSnakeByChars("document_viewed");
    case DocumentDownloaded => LowerSnakeByChars("document_downloaded");
    case DocumentDeleted => LowerSnakeByChars("document_deleted");
    case SignatureRequested => LowerSnakeByChars("signature_requested");
    case SignatureCompleted => LowerSnakeByChars("signature_completed");
    case SignatureRejected => LowerSnakeByChars("signature_rejected");
    case UserLogin => LowerSnakeByChars("user_login");
    case UserLogout => LowerSnakeByChars("user_logout");
    case UserCreated => LowerSnakeByChars("user_created");
    case UserUpdated => LowerSnakeByChars("user_updated");
    case CertificateIssued => LowerSnakeByChars("certificate_issued");
    case CertificateRevoked => LowerSnakeByChars("certificate_revoked");
    case SystemConfigChanged => LowerSnakeByChars("system_config_changed");
  }

  /** A string of lower-case letters and underscores is lower snake case. */
  lemma LowerSnakeByChars(s: string)
    requires forall i :: 0 <= i < |s| ==> IsLowerAscii(s[i]) || s[i] == '_'
    ensures IsLowerSnake(s)
  {
  }

  /** The label shown for an audit action. */
  function ActionLabel(a: AuditAction): (r: string)
    ensures |r| == |AuditActionName(a)|
    ensures forall i :: 0 <= i < |r| ==> r[i] == LabelCharAt(AuditActionName(a), i)
    ensures LabelToName(r) == AuditActionName(a)
  {
    ActionNamesAreLowerSnake(a);
    LabelRoundTrip(AuditActionName(a));
    LabelPointwise(AuditActionName(a));
    FormatLabel(AuditActionName(a))
  }

  /** Reads a displayed label back to its action. */
  function ParseActionLabel(text: string): (r: Option<AuditAction>)
    ensures r.Some? ==> AuditActionName(r.value) == LabelToName(text)
  {
    ParseAuditAction(LabelToName(text))
  }

  /** Every label reads back to its own action, so no two actions share a
      label. */
  lemma ActionLabelsRoundTrip(a: AuditAction, b: AuditAction)
    ensures ParseActionLabel(ActionLabel(a)) == Some(a)
    ensures a != b ==> ActionLabel(a) != ActionLabel(b)
  {
    assert ParseActionLabel(ActionLabel(b)) == Some(b);
  }

  /** Words without underscores, joined by underscores, format to the
      same words capitalised and joined by spaces. */
  lemma LabelOfJoinedWords(words: seq<string>)
    requires |words| > 0
    requires forall k :: 0 <= k < |words| ==> '_' !in words[k]
    ensures FormatLabel(Join(words, '_')) == Join(CapitalizeAll(words), ' ')
  {
    SplitOfJoin(words, '_');
  }

  datatype ActionIcon = FileTextIcon | EyeIcon | XCircleIcon | PenToolIcon
                      | LogInIcon | UserCheckIcon | ShieldIcon | AlertTriangleIcon

  /** The colour family; the text and background classes both derive from
      it. */
  datatype ActionTone = PrimaryTone | MutedTone | AccentTone | DestructiveTone
                      | PendingTone | VerifiedTone | WarningTone

  datatype ActionStyle = ActionStyle(icon: ActionIcon, tone: ActionTone)

  /** `actionConfig`, defined for all fourteen actions. Deletions and
      rejected signatures are the destructive ones and share the cross icon;
      every signature event uses the pen, every log-in or log-out the log-in
      icon. */
  function ActionConfig(a: AuditAction): (c: ActionStyle)
    ensures c.tone == DestructiveTone <==> a == DocumentDeleted || a == SignatureRejected
    ensures c.icon == XCircleIcon <==> c.tone == DestructiveTone
    ensures c.icon == PenToolIcon <==> a == SignatureRequested || a == SignatureCompleted
    ensures c.icon == LogInIcon <==> a == UserLogin || a == UserLogout
    ensures c.tone == WarningTone <==> a == CertificateRevoked
  {
    match a
    case DocumentUploaded => ActionStyle(FileTextIcon, PrimaryTone)
    case DocumentViewed => ActionStyle(EyeIcon, MutedTone)
    case DocumentDownloaded => ActionStyle(FileTextIcon, AccentTone)
    case DocumentDeleted => ActionStyle(XCircleIcon, DestructiveTone)
    case SignatureRequested => ActionStyle(PenToolIcon, PendingTone)
    case SignatureCompleted => ActionStyle(PenToolIcon, VerifiedTone)
    case SignatureRejected => ActionStyle(XCircleIcon, DestructiveTone)
    case UserLogin => ActionStyle(LogInIcon, VerifiedTone)
    case UserLogout => ActionStyle(LogInIcon, MutedTone)
    case UserCreated => ActionStyle(UserCheckIcon, AccentTone)
    case UserUpdated => ActionStyle(UserCheckIcon, PrimaryTone)
    case CertificateIssued => ActionStyle(ShieldIcon, VerifiedTone)
    case CertificateRevoked => ActionStyle(AlertTriangleIcon, WarningTone)
    case SystemConfigChanged => ActionStyle(ShieldIcon, PrimaryTone)
  }

  /** The text colour class of a tone. */
  function ColorClass(t: ActionTone): string {
    match t
    case PrimaryTone => "text-primary"
    case MutedTone => "text-muted-foreground"
    case AccentTone => "text-accent"
    case DestructiveTone => "text-destructive"
    case PendingTone => "text-pending"
    case VerifiedTone => "text-verified"
    case WarningTone => "text-warning"
  }

  /** The background class of a tone: a tenth-strength wash of the colour,
      or plain muted. */
  function BgClass(t: ActionTone): string {
    match t
    case PrimaryTone => "bg-primary/10"
    case MutedTone => "bg-muted"
    case AccentTone => "bg-accent/10"
    case DestructiveTone => "bg-destructive/10"
    case PendingTone => "bg-pending/10"
    case VerifiedTone => "bg-verified/10"
    case WarningTone => "bg-warning/10"
  }

  /** The metadata line of one entry. */
  datatype LogMeta = LogMeta(caption: string, ip: Option<string>)

  /** The text always shows; the address and its bullet show only when the
      entry has an address that is not the empty string. */
  function MetaFor(log: AuditLog): (m: LogMeta)
    ensures m.caption == ActionLabel(log.action)
    ensures LabelToName(m.caption) == AuditActionName(log.action)
    ensures m.ip.Some? <==> log.ipAddress.Some? && log.ipAddress.value != ""
    ensures m.ip.Some? ==> m.ip == log.ipAddress
  {
    var ip := if log.ipAddress.Some? && log.ipAddress.value != "" then log.ipAddress else None;
    LogMeta(ActionLabel(log.action), ip)
  }

  /** One rendered entry. */
  datatype Entry = Entry(userName: string, details: string, style: ActionStyle,
                         iconColor: string, iconBg: string, meta: LogMeta)

  datatype ActivityCard = ActivityCard(height: string, entries: seq<Entry>)

  /** The whole card: one entry per log, in the order given, its icon drawn
      in the colour and wash of its action's tone; the scroll height
      defaults to 400 pixels. */
  function ActivityCardFor(logs: seq<AuditLog>, maxHeight: Option<string>): (c: ActivityCard)
    ensures maxHeight.None? ==> c.height == "400px"
    ensures maxHeight.Some? ==> c.height == maxHeight.value
    ensures |c.entries| == |logs|
    ensures forall k :: 0 <= k < |logs| ==>
      c.entries[k].userName == logs[k].userName && c.entries[k].details == logs[k].details
      && c.entries[k].style == ActionConfig(logs[k].action) && c.entries[k].meta == MetaFor(logs[k])
    ensures forall k :: 0 <= k < |logs| ==>
      c.entries[k].iconColor == ColorClass(ActionConfig(logs[k].action).tone)
      && c.entries[k].iconBg == BgClass(ActionConfig(logs[k].action).tone)
  {
    ActivityCard(WithDefault(maxHeight, "400px"),
      seq(|logs|, k requires 0 <= k < |logs| =>
        Entry(logs[k].userName, logs[k].details, ActionConfig(logs[k].action),
              ColorClass(ActionConfig(logs[k].action).tone), BgClass(ActionConfig(logs[k].action).tone),
              MetaFor(logs[k]))))
  }
}

/** Two labels worked out word by word. */
module AuditLabelExamples {
  import opened Types
  import opened Text
  import opened AuditLabels

  /** Capitalising a word that starts with the lower-case letter `lower`
      gives `upper` followed by the rest. */
  lemma CapitalizeWord(w: string, upper: char)
    requires |w| > 0 && IsLowerAscii(w[0]) && upper as int == w[0] as int - 32
    ensures Capitalize(w) == [upper] + w[1..]
  {
  }

  lemma UserLoginWords(ws: seq<string>)
    requires ws == ["user", "login"]
    ensures Join(ws, '_') == AuditActionName(UserLogin)
    ensures Join(CapitalizeAll(ws), ' ') == "User Login"
  {
    CapitalizeWord("user", 'U');
    CapitalizeWord("login", 'L');
    var cs := CapitalizeAll(ws);
    assert cs[0] == ['U'] + "ser" == "User";
    assert cs[1] == ['L'] + "ogin" == "Login";
    assert cs == ["User", "Login"];
  }

  lemma SystemConfigChangedName(ws: seq<string>)
    requires ws == ["system", "config", "changed"]
    ensures Join(ws, '_') == AuditActionName(SystemConfigChanged)
  {
    assert ws[1..] == ["config", "changed"];
  }

  lemma SystemConfigChangedWords(ws: seq<string>)
    requires ws == ["system", "config", "changed"]
    ensures Join(CapitalizeAll(ws), ' ') == "System Config Changed"
  {
    var cs := CapitalizeAll(ws);
    CapitalizeWord("system", 'S');
    CapitalizeWord("config", 'C');
    CapitalizeWord("changed", 'C');
    assert cs[0] == ['S'] + "ystem" == "System";
    assert cs[1] == ['C'] + "onfig" == "Config";
    assert cs[2] == ['C'] + "hanged" == "Changed";
    assert cs == ["System", "Config", "Changed"];
    assert cs[1..] == ["Config", "Changed"];
  }

  /** The log-in action reads "User Login". */
  lemma UserLoginExample()
    ensures ActionLabel(UserLogin) == "User Login"
  {
    var ws := ["user", "login"];
    UserLoginWords(ws);
    LabelOfJoinedWords(ws);
  }

  /** The configuration-change action reads "System Config Changed". */
  lemma SystemConfigChangedExample()
    ensures ActionLabel(SystemConfigChanged) == "System Config Changed"
  {
    var ws := ["system", "config", "changed"];
    SystemConfigChangedName(ws);
    SystemConfigChangedWords(ws);
    LabelOfJoinedWords(ws);
  }
}

=== FILE: document_list.dfy ===
/** The document list card (src/components/dashboard/DocumentList.tsx): which
    documents it shows, when it offers "View All", and what each row says. */
module DocumentList {
  import opened Optional
  import opened Seqs
  import opened Types
  import Text

  /** The row cap of the card when it does not show everything. */
  const RecentLimit: nat := 5

  /** The card's properties once JavaScript's parameter defaults apply. */
  datatype ListProps = ListProps(title: string, showAll: bool)

  /** Absent properties take the defaults "Recent Documents" and `false`;
      given ones are used as they are. */
  function Props(title: Option<string>, showAll: Option<bool>): (p: ListProps)
    ensures title.None? ==> p.title == "Recent Documents"
    ensures showAll.None? ==> !p.showAll
    ensures title.Some? ==> p.title == title.value
    ensures showAll.Some? ==> p.showAll == showAll.value
  {
    ListProps(WithDefault(title, "Recent Documents"), WithDefault(showAll, false))
  }

  /** `displayDocs`: everything, or the first five in order. */
  function DisplayDocs(docs: seq<Document>, showAll: bool): (r: seq<Document>)
    ensures r <= docs
    ensures |r| == if showAll || |docs| <= RecentLimit then |docs| else RecentLimit
  {
    if showAll then docs else Take(docs, RecentLimit)
  }

  /** The "View All" button. */
  predicate ShowViewAll(docs: seq<Document>, showAll: bool) {
    !showAll && |docs| > RecentLimit
  }

  /** "View All" is offered exactly when the card hides some documents. */
  lemma ViewAllIffTruncated(docs: seq<Document>, showAll: bool)
    ensures ShowViewAll(docs, showAll) <==> |DisplayDocs(docs, showAll)| < |docs|
    ensures !ShowViewAll(docs, showAll) ==> DisplayDocs(docs, showAll) == docs
  {
  }

  /** The badge variants of `statusConfig`. */
  datatype Variant = PendingVariant | VerifiedVariant | DestructiveVariant | SecondaryVariant

  datatype StatusIcon = FileTextIcon | ClockIcon | CheckCircleIcon | XCircleIcon

  datatype StatusStyle = StatusStyle(caption: string, variant: Variant, icon: StatusIcon)

  /** `statusConfig`, defined for every document status. Each label is the
      status's wire name with its first letter capitalised; only rejected
      documents get the destructive badge. */
  function StatusConfig(s: DocumentStatus): (c: StatusStyle)
    ensures c.caption == Text.Capitalize(DocumentStatusName(s))
    ensures c.variant == DestructiveVariant <==> s == DocumentStatus.Rejected
    ensures c.variant == SecondaryVariant <==> s == Draft || s == DocumentStatus.Expired
  {
    match s
    case Draft => StatusStyle("Draft", SecondaryVariant, FileTextIcon)
    case Pending => StatusStyle("Pending", PendingVariant, ClockIcon)
    case Signed => StatusStyle("Signed", VerifiedVariant, CheckCircleIcon)
    case Rejected => StatusStyle("Rejected", DestructiveVariant, XCircleIcon)
    case Expired => StatusStyle("Expired", SecondaryVariant, ClockIcon)
  }

  /** Different statuses get different labels. */
  lemma StatusLabelsDistinct(a: DocumentStatus, b: DocumentStatus)
    requires a != b
    ensures StatusConfig(a).caption != StatusConfig(b).caption
  {
  }

  function SlotWithStatus(st: SignatureStatus): SignatureRequest -> bool {
    (s: SignatureRequest) => s.status == st
  }

  /** What one row shows. */
  datatype Row = Row(
    doc: Document,
    style: StatusStyle,
    pendingCount: nat,
    completedCount: nat,
    totalSignatures: nat,
    signNow: bool)

  /** One row: its status badge, the "k/n signed" line and the menu. The
      pending and completed counts never exceed the number of slots between
      them, so k <= n; "Sign Now" appears only on pending documents. */
  function RowFor(doc: Document): (r: Row)
    ensures r.doc == doc
    ensures r.style == StatusConfig(doc.status)
    ensures r.pendingCount + r.completedCount <= r.totalSignatures == |doc.signatures|
    ensures r.completedCount == |Filter(doc.signatures, SlotWithStatus(Completed))|
    ensures r.pendingCount == |Filter(doc.signatures, SlotWithStatus(SignatureStatus.Pending))|
    ensures r.signNow <==> doc.status == DocumentStatus.Pending
  {
    var pending := Filter(doc.signatures, SlotWithStatus(SignatureStatus.Pending));
    var completed := Filter(doc.signatures, SlotWithStatus(Completed));
    FilterDisjointBound(doc.signatures, SlotWithStatus(SignatureStatus.Pending), SlotWithStatus(Completed));
    Row(doc, StatusConfig(doc.status), |pending|, |completed|, |doc.signatures|,
        doc.status == DocumentStatus.Pending)
  }

  datatype ListCard = ListCard(title: string, viewAll: bool, rows: seq<Row>)

  /** The whole card: one row per displayed document, in order. */
  function ListCardFor(docs: seq<Document>, props: ListProps): (c: ListCard)
    ensures c.title == props.title
    ensures c.viewAll <==> ShowViewAll(docs, props.showAll)
    ensures c.viewAll <==> |c.rows| < |docs|
    ensures |c.rows| == |DisplayDocs(docs, props.showAll)| <= |docs|
    ensures forall k :: 0 <= k < |c.rows| ==> c.rows[k] == RowFor(docs[k])
    ensures !props.showAll ==> |c.rows| <= RecentLimit
  {
    var shown := DisplayDocs(docs, props.showAll);
    ViewAllIffTruncated(docs, props.showAll);
    ListCard(props.title, ShowViewAll(docs, props.showAll),
             seq(|shown|, k requires 0 <= k < |shown| => RowFor(shown[k])))
  }
}

/** The documents page (src/pages/Documents.tsx): the per-user pending
    counter and the status tabs. */
module DocumentsPage {
  import opened Seqs
  import opened Types
  import SignQueue

  function WithStatus(st: DocumentStatus): Document -> bool {
    (d: Document) => d.status == st
  }

  /** The documents of one status tab, in their original order. */
  function Tab(docs: seq<Document>, st: DocumentStatus): (r: seq<Document>)
    ensures IsSubsequence(r, docs)
    ensures forall d :: d in r <==> d in docs && d.status == st
    ensures forall d :: multiset(r)[d] == if d.status == st then multiset(docs)[d] else 0
  {
    FilterCounts(docs, WithStatus(st));
    Filter(docs, WithStatus(st))
  }

  /** The tabs besides "All". */
  predicate IsStatusTab(st: DocumentStatus) {
    st == DocumentStatus.Pending || st == Signed || st == DocumentStatus.Rejected
  }

  /** The number on the "Pending" tab. */
  function PendingTabBadge(docs: seq<Document>): (n: nat)
    ensures n == |set i | 0 <= i < |docs| && docs[i].status == DocumentStatus.Pending|
    ensures n == |Tab(docs, DocumentStatus.Pending)|
  {
    PendingCountIsIndexCount(docs);
    |Tab(docs, DocumentStatus.Pending)|
  }

  /** The Pending tab holds one document per position of a pending
      document in the list. */
  lemma PendingCountIsIndexCount(docs: seq<Document>)
    ensures |Tab(docs, DocumentStatus.Pending)|
         == |set i | 0 <= i < |docs| && docs[i].status == DocumentStatus.Pending|
  {
    var p := WithStatus(DocumentStatus.Pending);
    assert docs[..|docs|] == docs;
    FilterLengthCountsIndices(docs, p, |docs|);
    assert IndicesWhere(docs, p, |docs|)
        == set i | 0 <= i < |docs| && docs[i].status == DocumentStatus.Pending;
  }

  /** The counter passed to the layout: documents awaiting `user`. */
  function UserPendingCount(docs: seq<Document>, user: string): (n: nat)
    ensures n == |SignQueue.PendingDocs(docs, user)|
    ensures n <= PendingTabBadge(docs)
  {
    FilterMonotone(docs, (d: Document) => SignQueue.AwaitsSignature(d, user), WithStatus(DocumentStatus.Pending));
    |SignQueue.PendingDocs(docs, user)|
  }

  /** No document is on two status tabs, and a draft or expired document is
      on none of them: it appears only under "All". */
  lemma TabsDisjoint(docs: seq<Document>, a: DocumentStatus, b: DocumentStatus, d: Document)
    requires a != b
    ensures !(d in Tab(docs, a) && d in Tab(docs, b))
    ensures d.status == Draft || d.status == DocumentStatus.Expired ==>
      forall st :: IsStatusTab(st) ==> d !in Tab(docs, st)
  {
  }

  /** The three status tabs together hold exactly the pending, signed and
      rejected documents: their sizes add up to that count. */
  lemma TabsCoverStatuses(docs: seq<Document>)
    ensures |Tab(docs, DocumentStatus.Pending)| + |Tab(docs, Signed)| + |Tab(docs, DocumentStatus.Rejected)|
      == |Filter(docs, (d: Document) => IsStatusTab(d.status))|
  {
    TabCountsAdd(docs);
  }

  lemma {:induction false} TabCountsAdd(docs: seq<Document>)
    ensures |Tab(docs, DocumentStatus.Pending)| + |Tab(docs, Signed)| + |Tab(docs, DocumentStatus.Rejected)|
      == |Filter(docs, (d: Document) => IsStatusTab(d.status))|
  {
    if |docs| != 0 {
      TabCountsAdd(docs[1..]);
    }
  }
}

=== FILE: seqs.dfy ===
/** The optional value used for the source's optional record fields and for
    the "found or undefined" results of array searches. */
module Optional {

  /** A value that may be absent: an optional field, or a search that
      found nothing. */
  datatype Option<T> = None | Some(value: T)

  /** JavaScript's parameter default: the given value if there is one,
      `fallback` otherwise. */
  function WithDefault<T>(given: Option<T>, fallback: T): (r: T)
    ensures given.Some? ==> r == given.value
    ensures given.None? ==> r == fallback
  {
    if given.Some? then given.value else fallback
  }
}

/** The array operations the components use (`filter`, `find`, `findIndex`,
    `some`, `slice(0, n)`), as functions over sequences, each with a contract
    that characterises its result independently of how it is computed. */
module Seqs {
  import opened Optional

  /** `a` is obtained from `b` by deleting elements, keeping the order. */
  predicate IsSubsequence<T(==)>(a: seq<T>, b: seq<T>)
    decreases |b|
  {
    if |a| == 0 then true
    else if |b| == 0 then false
    else (a[0] == b[0] && IsSubsequence(a[1..], b[1..])) || IsSubsequence(a, b[1..])
  }

  /** No two elements of `s` share a key. */
  predicate DistinctBy<T, K(==)>(s: seq<T>, key: T -> K) {
    forall i, j :: 0 <= i < j < |s| ==> key(s[i]) != key(s[j])
  }

  /** `Array.prototype.filter`: the elements satisfying `p`, in their
      original order. `FilterCounts` adds that each keeps its full
      multiplicity; a subsequence with that property is unique, so the two
      contracts pin the result down. */
  function Filter<T(==,!new)>(s: seq<T>, p: T -> bool): (r: seq<T>)
    ensures |r| <= |s|
    ensures IsSubsequence(r, s)
    ensures forall x :: x in r <==> x in s && p(x)
  {
    if |s| == 0 then []
    else
      var rest := Filter(s[1..], p);
      assert s == [s[0]] + s[1..];
      if p(s[0]) then
        assert ([s[0]] + rest)[1..] == rest;
        [s[0]] + rest
      else
        assert |rest| == 0 || IsSubsequence(rest, s[1..]);
        rest
  }

  /** `Array.prototype.findIndex`: the index of the first element
      satisfying `p`, or -1 when there is none. */
  function FindIndex<T>(s: seq<T>, p: T -> bool): (r: int)
    ensures -1 <= r < |s|
    ensures r == -1 <==> forall i :: 0 <= i < |s| ==> !p(s[i])
    ensures 0 <= r ==> p(s[r]) && forall i :: 0 <= i < r ==> !p(s[i])
  {
    if |s| == 0 then -1
    else if p(s[0]) then 0
    else
      var k := FindIndex(s[1..], p);
      if k == -1 then -1 else k + 1
  }

  /** `Array.prototype.find`: the first element satisfying `p`, if any. */
  function Find<T>(s: seq<T>, p: T -> bool): (r: Option<T>)
    ensures r.None? <==> forall i :: 0 <= i < |s| ==> !p(s[i])
    ensures r.Some? ==> 0 <= FindIndex(s, p) && r.value == s[FindIndex(s, p)]
  {
    if |s| == 0 then None
    else if p(s[0]) then Some(s[0])
    else Find(s[1..], p)
  }

  /** `Array.prototype.some`. */
  function Any<T>(s: seq<T>, p: T -> bool): (r: bool)
    ensures r <==> exists i :: 0 <= i < |s| && p(s[i])
  {
    if |s| == 0 then false
    else p(s[0]) || Any(s[1..], p)
  }

  /** `slice(0, n)`: the first `min(n, |s|)` elements. */
  function Take<T>(s: seq<T>, n: nat): (r: seq<T>)
    ensures |r| == if n < |s| then n else |s|
    ensures r <= s
  {
    if n < |s| then s[..n] else s
  }

  /** Every element that passes the filter is kept as often as it occurs in
      `s`, and no other element is kept. */
  lemma {:induction false} FilterCounts<T(!new)>(s: seq<T>, p: T -> bool)
    ensures forall x :: multiset(Filter(s, p))[x] == if p(x) then multiset(s)[x] else 0
  {
    if |s| != 0 {
      FilterCounts(s[1..], p);
      assert s == [s[0]] + s[1..];
      assert multiset(s) == multiset{s[0]} + multiset(s[1..]);
    }
  }

  /** Filtering distributes over concatenation. */
  lemma {:induction false} FilterAppend<T(!new)>(s: seq<T>, t: seq<T>, p: T -> bool)
    ensures Filter(s + t, p) == Filter(s, p) + Filter(t, p)
  {
    if |s| == 0 {
      assert s + t == t;
    } else {
      assert (s + t)[1..] == s[1..] + t;
      FilterAppend(s[1..], t, p);
    }
  }

  /** A filter every element passes is the identity. */
  lemma {:induction false} FilterKeepsAll<T(!new)>(s: seq<T>, p: T -> bool)
    requires forall i :: 0 <= i < |s| ==> p(s[i])
    ensures Filter(s, p) == s
  {
    if |s| != 0 {
      FilterKeepsAll(s[1..], p);
    }
  }

  /** A filter no element passes is empty. */
  lemma FilterDropsAll<T(!new)>(s: seq<T>, p: T -> bool)
    requires forall i :: 0 <= i < |s| ==> !p(s[i])
    ensures Filter(s, p) == []
  {
    if |s| != 0 {
      assert s[0] in s;
    }
  }

  /** Filtering by a weaker predicate keeps at least as many elements. */
  lemma {:induction false} FilterMonotone<T(!new)>(s: seq<T>, p: T -> bool, q: T -> bool)
    requires forall i :: 0 <= i < |s| ==> p(s[i]) ==> q(s[i])
    ensures |Filter(s, p)| <= |Filter(s, q)|
  {
    if |s| != 0 {
      FilterMonotone(s[1..], p, q);
    }
  }

  /** Two predicates that never hold together split off at most `|s|`
      elements between them. */
  lemma {:induction false} FilterDisjointBound<T(!new)>(s: seq<T>, p: T -> bool, q: T -> bool)
    requires forall i :: 0 <= i < |s| ==> !(p(s[i]) && q(s[i]))
    ensures |Filter(s, p)| + |Filter(s, q)| <= |s|
  {
    if |s| != 0 {
      FilterDisjointBound(s[1..], p, q);
    }
  }

  /** Filtering out the one element the predicate rejects removes exactly
      that element. */
  lemma FilterDropsOne<T(!new)>(a: seq<T>, x: T, b: seq<T>, p: T -> bool)
    requires forall k :: 0 <= k < |a| ==> p(a[k])
    requires forall k :: 0 <= k < |b| ==> p(b[k])
    requires !p(x)
    ensures Filter(a + [x] + b, p) == a + b
  {
    var ax := a + [x];
    FilterKeepsAll(a, p);
    FilterKeepsAll(b, p);
    assert Filter([x], p) == [];
    FilterAppend(a, [x], p);
    assert Filter(ax, p) == a + [];
    assert a + [] == a;
    FilterAppend(ax, b, p);
    assert Filter(ax + b, p) == a + b;
  }

  /** The positions below `n` whose element satisfies `p`. */
  function IndicesWhere<T>(s: seq<T>, p: T -> bool, n: nat): set<int>
    requires n <= |s|
  {
    set i | 0 <= i < n && p(s[i])
  }

  /** The length of a filter is the number of positions whose element
      passes: one kept element per such position. */
  lemma {:induction false} FilterLengthCountsIndices<T(!new)>(s: seq<T>, p: T -> bool, n: nat)
    requires n <= |s|
    ensures |Filter(s[..n], p)| == |IndicesWhere(s, p, n)|
    decreases n
  {
    if n == 0 {
      assert IndicesWhere(s, p, 0) == {};
    } else {
      var m := n - 1;
      FilterLengthCountsIndices(s, p, m);
      assert s[..n] == s[..m] + [s[m]];
      FilterAppend(s[..m], [s[m]], p);
      IndicesStep(s, p, n);
      if p(s[m]) {
        assert Filter([s[m]], p) == [s[m]];
        assert m !in IndicesWhere(s, p, m);
      } else {
        assert Filter([s[m]], p) == [];
      }
    }
  }

  /** Moving the bound up by one adds that position exactly when its
      element passes. */
  lemma IndicesStep<T>(s: seq<T>, p: T -> bool, n: nat)
    requires 0 < n <= |s|
    ensures IndicesWhere(s, p, n) == IndicesWhere(s, p, n - 1) + (if p(s[n - 1]) then {n - 1} else {})
  {
    var a, b := IndicesWhere(s, p, n), IndicesWhere(s, p, n - 1) + (if p(s[n - 1]) then {n - 1} else {});
    forall i ensures i in a <==> i in b {
      if i == n - 1 {
      } else {
        assert i in a <==> 0 <= i < n - 1 && p(s[i]);
      }
    }
  }

  /** A predicate and its negation split `s` exactly. */
  lemma {:induction false} FilterPartition<T(!new)>(s: seq<T>, p: T -> bool, q: T -> bool)
    requires forall i :: 0 <= i < |s| ==> (q(s[i]) <==> !p(s[i]))
    ensures |Filter(s, p)| + |Filter(s, q)| == |s|
  {
    if |s| != 0 {
      FilterPartition(s[1..], p, q);
    }
  }

  /** Filtering cannot create a key collision. */
  lemma {:induction false} FilterKeepsDistinct<T(!new), K>(s: seq<T>, p: T -> bool, key: T -> K)
    requires DistinctBy(s, key)
    ensures DistinctBy(Filter(s, p), key)
  {
    if |s| != 0 {
      var rest := Filter(s[1..], p);
      assert DistinctBy(s[1..], key) by {
        forall i, j | 0 <= i < j < |s[1..]|
          ensures key(s[1..][i]) != key(s[1..][j])
        {
          assert s[1..][i] == s[i + 1] && s[1..][j] == s[j + 1];
        }
      }
      FilterKeepsDistinct(s[1..], p, key);
      if p(s[0]) {
        var r := [s[0]] + rest;
        forall i, j | 0 <= i < j < |r|
          ensures key(r[i]) != key(r[j])
        {
          if i == 0 {
            assert r[j] == rest[j - 1];
            assert rest[j - 1] in s[1..];
            var k :| 0 <= k < |s[1..]| && s[1..][k] == rest[j - 1];
            assert s[1..][k] == s[k + 1];
          } else {
            assert r[i] == rest[i - 1] && r[j] == rest[j - 1];
          }
        }
      }
    }
  }
}

=== FILE: sidebar.dfy ===
/** The navigation sidebar (src/components/layout/Sidebar.tsx): which links a
    role sees, which one is highlighted, where the pending badge goes, and
    the collapse toggle. */
module Sidebar {
  import opened Optional
  import opened Seqs
  import opened Types

  /** A navigation link; `labelText` is the link's `label` (a reserved word
      here), and `roles` absent means every role may see it. The icon is
      left out. */
  datatype NavItem = NavItem(labelText: string, href: string, roles: Option<seq<UserRole>>)

  /** The eight links, in the order they are listed. */
  function NavItems(): seq<NavItem> {
    [ NavItem("Dashboard", "/", None),
      NavItem("Documents", "/documents", None),
      NavItem("Sign Documents", "/sign", None),
      NavItem("Verify", "/verify", None),
      NavItem("Audit Logs", "/audit", None),
      NavItem("Users", "/users", Some([Admin])),
      NavItem("Certificates", "/certificates", Some([Admin])),
      NavItem("Settings", "/settings", None) ]
  }

  function Href(item: NavItem): string { item.href }

  /** `!item.roles || item.roles.includes(role)`: an absent list admits
      everyone; a present one, even empty, admits only its members. */
  predicate VisibleTo(item: NavItem, role: UserRole) {
    item.roles.None? || role in item.roles.value
  }

  function VisibleToPred(role: UserRole): NavItem -> bool {
    (item: NavItem) => VisibleTo(item, role)
  }

  /** `filteredNavItems`: the links `role` may see, in listed order. */
  function FilteredNavItems(role: UserRole): (r: seq<NavItem>)
    ensures IsSubsequence(r, NavItems())
    ensures forall item :: item in r <==> item in NavItems() && VisibleTo(item, role)
  {
    Filter(NavItems(), VisibleToPred(role))
  }

  /** Filtering eight items by a predicate that rejects exactly the sixth and
      seventh leaves the other six in order. */
  lemma DropSixthAndSeventh<T(!new)>(all: seq<T>, p: T -> bool)
    requires |all| == 8
    requires forall i :: 0 <= i < 8 ==> (p(all[i]) <==> i != 5 && i != 6)
    ensures Filter(all, p) == all[..5] + [all[7]]
  {
    assert all == all[..5] + [all[5], all[6]] + [all[7]];
    FilterKeepsAll(all[..5], p);
    FilterKeepsAll([all[7]], p);
    FilterAppend(all[..5] + [all[5], all[6]], [all[7]], p);
    FilterAppend(all[..5], [all[5], all[6]], p);
    assert Filter([all[5], all[6]], p) == [];
  }

  /** Which of the eight links `role` may see: all of them for an
      administrator, all but the sixth and seventh otherwise. */
  lemma VisibilityByIndex(role: UserRole)
    ensures forall i :: 0 <= i < 8 ==>
      (VisibleToPred(role)(NavItems()[i]) <==> role == Admin || (i != 5 && i != 6))
  {
    var all := NavItems();
    assert all[5].roles == Some([Admin]) && all[6].roles == Some([Admin]);
    assert forall i :: 0 <= i < 8 && i != 5 && i != 6 ==> all[i].roles.None?;
  }

  /** An administrator sees every link; any other role sees six, never the
      user and certificate administration pages. */
  lemma VisibleLinksPerRole(role: UserRole)
    ensures role == Admin ==> FilteredNavItems(role) == NavItems()
    ensures role != Admin ==> FilteredNavItems(role) == NavItems()[..5] + [NavItems()[7]]
    ensures role != Admin ==> |FilteredNavItems(role)| == 6
  {
    var all := NavItems();
    var p := VisibleToPred(role);
    VisibilityByIndex(role);
    if role == Admin {
      FilterKeepsAll(all, p);
    } else {
      DropSixthAndSeventh(all, p);
    }
  }

  /** The user and certificate pages (the sixth and seventh links) are
      shown to an administrator only. */
  lemma AdminPagesHidden(role: UserRole)
    ensures NavItems()[5] in FilteredNavItems(role) <==> role == Admin
    ensures NavItems()[6] in FilteredNavItems(role) <==> role == Admin
  {
    VisibilityByIndex(role);
  }

  /** Every link a role other than administrator sees is one without a role
      restriction. */
  lemma OthersSeeOpenLinksOnly(role: UserRole)
    requires role != Admin
    ensures forall item :: item in FilteredNavItems(role) ==> item.roles.None?
  {
    var all := NavItems();
    VisibilityByIndex(role);
    forall i | 0 <= i < |all| && VisibleToPred(role)(all[i]) ensures all[i].roles.None? {
      OpenLinkAt(i);
    }
    VisibleOnlyOpen(all, role);
  }

  /** If every link a role may see is open, so is every link it is shown. */
  lemma VisibleOnlyOpen(all: seq<NavItem>, role: UserRole)
    requires forall i :: 0 <= i < |all| && VisibleToPred(role)(all[i]) ==> all[i].roles.None?
    ensures forall item :: item in Filter(all, VisibleToPred(role)) ==> item.roles.None?
  {
  }

  /** Every link but the sixth and seventh is open to all roles. */
  lemma OpenLinkAt(i: int)
    requires 0 <= i < 8 && i != 5 && i != 6
    ensures NavItems()[i].roles.None?
  {
  }

  /** No two links share an address. */
  lemma NavHrefsDistinct()
    ensures DistinctBy(NavItems(), Href)
  {
    var all := NavItems();
    forall i, j | 0 <= i < j < |all| ensures Href(all[i]) != Href(all[j]) {
      assert |all[i].href| != |all[j].href| || all[i].href[1] != all[j].href[1];
    }
  }

  function Label(item: NavItem): string { item.labelText }

  /** No two links share a label. */
  lemma NavLabelsDistinct()
    ensures DistinctBy(NavItems(), Label)
  {
    var all := NavItems();
    forall i, j | 0 <= i < j < |all| ensures Label(all[i]) != Label(all[j]) {
      assert |all[i].labelText| != |all[j].labelText| || all[i].labelText[1] != all[j].labelText[1];
    }
  }

  /** What one link shows. */
  datatype NavEntry = NavEntry(item: NavItem, active: bool, showLabel: bool, badge: Option<int>)

  /** One link: highlighted iff its address is the current path, labelled
      unless collapsed, and carrying the count only on "Sign Documents" when
      that count is positive. */
  function EntryFor(item: NavItem, pathname: string, pendingCount: int, collapsed: bool): (e: NavEntry)
    ensures e.item == item
    ensures e.active <==> pathname == item.href
    ensures e.showLabel <==> !collapsed
    ensures e.badge.Some? <==> item.labelText == "Sign Documents" && pendingCount > 0
    ensures e.badge.Some? ==> e.badge.value == pendingCount
  {
    var showBadge := item.labelText == "Sign Documents" && pendingCount > 0;
    NavEntry(item, pathname == item.href, !collapsed, if showBadge then Some(pendingCount) else None)
  }

  /** The sidebar's own state. */
  datatype SidebarView = SidebarView(width: nat, showBrand: bool, entries: seq<NavEntry>)

  /** The expanded and collapsed widths, in pixels. */
  const ExpandedWidth: nat := 260
  const CollapsedWidth: nat := 80

  function Width(collapsed: bool): nat {
    if collapsed then CollapsedWidth else ExpandedWidth
  }

  /** One entry per link, in order. */
  function EntriesFor(items: seq<NavItem>, pathname: string, count: int, collapsed: bool): (es: seq<NavEntry>)
    ensures |es| == |items|
    ensures forall k :: 0 <= k < |es| ==> es[k] == EntryFor(items[k], pathname, count, collapsed)
  {
    seq(|items|, k requires 0 <= k < |items| => EntryFor(items[k], pathname, count, collapsed))
  }

  /** The whole sidebar for a signed-in user. An absent `pendingCount`
      counts as zero, so no badge shows. */
  function SidebarFor(role: UserRole, pathname: string, pendingCount: Option<int>, collapsed: bool): (v: SidebarView)
    ensures v.width == Width(collapsed)
    ensures v.showBrand <==> !collapsed
    ensures v.entries == EntriesFor(FilteredNavItems(role), pathname, WithDefault(pendingCount, 0), collapsed)
    ensures pendingCount.None? ==> forall k :: 0 <= k < |v.entries| ==> v.entries[k].badge.None?
  {
    SidebarView(Width(collapsed), !collapsed,
                EntriesFor(FilteredNavItems(role), pathname, WithDefault(pendingCount, 0), collapsed))
  }

  /** At most one link is highlighted, whatever the path. */
  lemma AtMostOneActive(role: UserRole, pathname: string, pendingCount: Option<int>, collapsed: bool)
    ensures var v := SidebarFor(role, pathname, pendingCount, collapsed);
      forall i, j ::
        (0 <= i < |v.entries| && 0 <= j < |v.entries| && v.entries[i].active && v.entries[j].active) ==> i == j
  {
    NavHrefsDistinct();
    FilterKeepsDistinct(NavItems(), VisibleToPred(role), Href);
  }

  /** At most one link carries the badge: only one is called "Sign Documents". */
  lemma AtMostOneBadge(role: UserRole, pathname: string, pendingCount: Option<int>, collapsed: bool)
    ensures var v := SidebarFor(role, pathname, pendingCount, collapsed);
      forall i, j ::
        (0 <= i < |v.entries| && 0 <= j < |v.entries| && v.entries[i].badge.Some? && v.entries[j].badge.Some?) ==> i == j
  {
    NavLabelsDistinct();
    FilterKeepsDistinct(NavItems(), VisibleToPred(role), Label);
  }

  /** The collapse button flips the state, and with it the width. */
  function ToggleCollapse(collapsed: bool): (r: bool)
    ensures Width(r) != Width(collapsed)
    ensures Width(r) == CollapsedWidth <==> !collapsed
  {
    !collapsed
  }

  /** Two clicks on the collapse button restore the sidebar's width. */
  lemma ToggleTwiceRestores(collapsed: bool)
    ensures ToggleCollapse(ToggleCollapse(collapsed)) == collapsed
    ensures Width(ToggleCollapse(ToggleCollapse(collapsed))) == Width(collapsed)
  {
  }
}

=== FILE: sign_queue.dfy ===
/** Which documents await a user's signature, and whether it is that user's
    turn (src/pages/Sign.tsx and src/components/dashboard/PendingSignatures.tsx).

    The turn rule compares two `findIndex` results: the index of the first
    pending slot and the index of the user's first slot, whatever that slot's
    status. It therefore denies the turn to a user whose earliest slot is
    already completed even when a later slot of theirs is the first pending
    one; `EarlierFinishedSlotBlocksTurn` and `BlockedTurnExample` state that
    behaviour, which the model reproduces. */
module SignQueue {
  import opened Optional
  import opened Seqs
  import opened Types

  /** A slot that belongs to `user` and still waits for a signature. */
  predicate IsPendingSlotOf(s: SignatureRequest, user: string) {
    s.signerId == user && s.status == SignatureStatus.Pending
  }

  predicate IsPendingStatus(s: SignatureRequest) {
    s.status == SignatureStatus.Pending
  }

  /** The search predicates the components pass to `find`, `findIndex`,
      `some` and `filter`. */
  function SlotOf(user: string): SignatureRequest -> bool {
    (s: SignatureRequest) => s.signerId == user
  }

  function NotSlotOf(user: string): SignatureRequest -> bool {
    (s: SignatureRequest) => s.signerId != user
  }

  function PendingSlotOf(user: string): SignatureRequest -> bool {
    (s: SignatureRequest) => IsPendingSlotOf(s, user)
  }

  /** Some slot of `sigs` is a pending slot of `user`. */
  predicate HasPendingSlot(sigs: seq<SignatureRequest>, user: string) {
    exists i :: 0 <= i < |sigs| && IsPendingSlotOf(sigs[i], user)
  }

  /** The listing filter shared by the Sign page, the dashboard panel and the
      per-page pending counters: the document is pending and some of its
      slots is a pending slot of `user`. */
  predicate AwaitsSignature(doc: Document, user: string) {
    doc.status == DocumentStatus.Pending
    && Any(doc.signatures, PendingSlotOf(user))
  }

  /** The documents listed for `user`, in their original order. */
  function PendingDocs(docs: seq<Document>, user: string): (r: seq<Document>)
    ensures IsSubsequence(r, docs)
    ensures forall d :: d in r <==>
      d in docs && d.status == DocumentStatus.Pending && HasPendingSlot(d.signatures, user)
    ensures forall d :: multiset(r)[d] == if AwaitsSignature(d, user) then multiset(docs)[d] else 0
  {
    FilterCounts(docs, (d: Document) => AwaitsSignature(d, user));
    Filter(docs, (d: Document) => AwaitsSignature(d, user))
  }

  /** `signatures.findIndex(s => s.status === 'pending')`. */
  function FirstPendingIndex(sigs: seq<SignatureRequest>): int {
    FindIndex(sigs, IsPendingStatus)
  }

  /** `signatures.findIndex(s => s.signerId === user)`: the user's first slot,
      whatever its status. */
  function FirstSlotIndex(sigs: seq<SignatureRequest>, user: string): int {
    FindIndex(sigs, SlotOf(user))
  }

  /** `isUsersTurn`, exactly as the source computes it. */
  predicate IsUsersTurn(sigs: seq<SignatureRequest>, user: string) {
    FirstPendingIndex(sigs) == FirstSlotIndex(sigs, user)
  }

  /** `userSignature`: the user's first pending slot, if any. */
  function UserSignature(sigs: seq<SignatureRequest>, user: string): (r: Option<SignatureRequest>)
    ensures r.Some? <==> HasPendingSlot(sigs, user)
    ensures r.Some? ==>
      exists i :: 0 <= i < |sigs| && sigs[i] == r.value && IsPendingSlotOf(sigs[i], user)
        && forall j :: 0 <= j < i ==> !IsPendingSlotOf(sigs[j], user)
  {
    var r := Find(sigs, PendingSlotOf(user));
    assert r.Some? ==> IsPendingSlotOf(sigs[FindIndex(sigs, PendingSlotOf(user))], user);
    r
  }

  /** For a listed document both indices the turn rule compares exist, so
      the rule never holds merely because both searches failed. */
  lemma ListedTurnIndicesExist(doc: Document, user: string)
    requires AwaitsSignature(doc, user)
    ensures 0 <= FirstPendingIndex(doc.signatures) < |doc.signatures|
    ensures 0 <= FirstSlotIndex(doc.signatures, user) < |doc.signatures|
  {
    var i :| 0 <= i < |doc.signatures| && IsPendingSlotOf(doc.signatures[i], user);
    var sigs := doc.signatures;
    assert IsPendingStatus(sigs[i]);
    assert SlotOf(user)(sigs[i]);
  }

  /** When it is the user's turn on a listed document, the first pending slot
      is the user's, every earlier slot is finished, and it is the slot shown
      as the user's signature. */
  lemma TurnMeansFirstPendingSlotIsUsers(doc: Document, user: string)
    requires AwaitsSignature(doc, user)
    requires IsUsersTurn(doc.signatures, user)
    ensures var i := FirstPendingIndex(doc.signatures);
      && 0 <= i < |doc.signatures|
      && IsPendingSlotOf(doc.signatures[i], user)
      && (forall j :: 0 <= j < i ==> doc.signatures[j].status != SignatureStatus.Pending)
      && UserSignature(doc.signatures, user) == Some(doc.signatures[i])
  {
    var sigs := doc.signatures;
    ListedTurnIndicesExist(doc, user);
    var i := FirstPendingIndex(sigs);
    assert sigs[i].signerId == user;
    assert forall j :: 0 <= j < i ==> !IsPendingStatus(sigs[j]);
    UserSignatureAtFirstPending(sigs, user, i);
  }

  /** When the first pending slot is the user's, it is the slot shown as
      the user's signature. */
  lemma UserSignatureAtFirstPending(sigs: seq<SignatureRequest>, user: string, i: int)
    requires 0 <= i < |sigs| && IsPendingSlotOf(sigs[i], user)
    requires forall j :: 0 <= j < i ==> !IsPendingStatus(sigs[j])
    ensures UserSignature(sigs, user) == Some(sigs[i])
  {
    var r := UserSignature(sigs, user);
    var k :| 0 <= k < |sigs| && sigs[k] == r.value && IsPendingSlotOf(sigs[k], user)
      && forall j :: 0 <= j < k ==> !IsPendingSlotOf(sigs[j], user);
    assert IsPendingStatus(sigs[k]);
    assert k == i;
  }

  /** On a listed document the rule holds exactly when the first pending
      slot is the user's and the user has no slot before it. */
  lemma TurnCharacterization(doc: Document, user: string)
    requires AwaitsSignature(doc, user)
    ensures var i := FirstPendingIndex(doc.signatures);
      0 <= i < |doc.signatures| &&
      (IsUsersTurn(doc.signatures, user) <==>
        doc.signatures[i].signerId == user
        && forall j :: 0 <= j < i ==> doc.signatures[j].signerId != user)
  {
    var sigs := doc.signatures;
    ListedTurnIndicesExist(doc, user);
    var i := FirstPendingIndex(sigs);
    var u := FirstSlotIndex(sigs, user);
    if sigs[i].signerId == user && forall j :: 0 <= j < i ==> sigs[j].signerId != user {
      assert SlotOf(user)(sigs[i]);
      assert 0 <= u && SlotOf(user)(sigs[u]);
      assert forall j :: 0 <= j < u ==> !SlotOf(user)(sigs[j]);
      assert u == i;
    }
  }

  /** The quirk: when the user's earliest slot is no longer pending, the rule
      never grants the turn, even if a later slot of the user's is the first
      pending one. */
  lemma EarlierFinishedSlotBlocksTurn(sigs: seq<SignatureRequest>, user: string)
    requires 0 <= FirstSlotIndex(sigs, user)
    requires sigs[FirstSlotIndex(sigs, user)].status != SignatureStatus.Pending
    ensures !IsUsersTurn(sigs, user)
  {
    var u := FirstSlotIndex(sigs, user);
    assert !IsPendingStatus(sigs[u]);
  }

  /** A slot with the given signer and status; the other fields are fixed. */
  function Slot(signer: string, order: int, status: SignatureStatus): SignatureRequest {
    SignatureRequest("sig", "doc", signer, signer, signer, UserRole.Faculty, order, status,
                     0, None, None, None, None, None)
  }

  /** A concrete document on which the quirk shows: the user signed the first
      slot, another signer the second, and the user's third slot is the first
      pending one, yet the rule says it is not the user's turn. */
  lemma BlockedTurnExample()
    ensures var sigs := [Slot("u", 0, Completed), Slot("v", 1, Completed), Slot("u", 2, SignatureStatus.Pending)];
      && FirstPendingIndex(sigs) == 2
      && IsPendingSlotOf(sigs[2], "u")
      && HasPendingSlot(sigs, "u")
      && !IsUsersTurn(sigs, "u")
  {
    var sigs := [Slot("u", 0, Completed), Slot("v", 1, Completed), Slot("u", 2, SignatureStatus.Pending)];
    assert IsPendingSlotOf(sigs[2], "u");
    assert FirstSlotIndex(sigs, "u") == 0;
    assert FirstPendingIndex(sigs[1..]) == 1 by {
      assert FirstPendingIndex(sigs[1..][1..]) == 0;
    }
  }

  /** Every listed document awaits the user. */
  lemma ListedDocsAwait(docs: seq<Document>, user: string)
    ensures forall k :: 0 <= k < |PendingDocs(docs, user)| ==> AwaitsSignature(PendingDocs(docs, user)[k], user)
  {
    var listed := PendingDocs(docs, user);
    forall k | 0 <= k < |listed|
      ensures AwaitsSignature(listed[k], user)
    {
      assert listed[k] in listed;
    }
  }

  /** The listing is empty exactly when no document awaits the user. */
  lemma NothingListedIffNoneAwaits(docs: seq<Document>, user: string)
    ensures |PendingDocs(docs, user)| == 0 <==> forall d :: d in docs ==> !AwaitsSignature(d, user)
  {
    var listed := PendingDocs(docs, user);
    if |listed| > 0 {
      assert listed[0] in listed;
    } else {
      forall d | d in docs
        ensures !AwaitsSignature(d, user)
      {
        assert d !in listed;
      }
    }
  }

  // ---- The Sign page ----

  /** How a slot is drawn in a card's signature flow: the chip background
      and the avatar colour follow different rules. */
  datatype Tone = VerifiedTone | AccentTone | MutedTone

  /** Avatar colour, shared by the Sign page and the dashboard panel:
      completed first, then the current user, then muted. */
  function AvatarTone(s: SignatureRequest, user: string): (t: Tone)
    ensures t == VerifiedTone <==> s.status == Completed
    ensures t == AccentTone <==> s.status != Completed && s.signerId == user
    ensures t == MutedTone <==> s.status != Completed && s.signerId != user
  {
    if s.status == Completed then VerifiedTone
    else if s.signerId == user then AccentTone
    else MutedTone
  }

  /** Chip background on the Sign page: completed first, then the current
      user's pending slot (accent with a ring), then muted. */
  function ChipTone(s: SignatureRequest, user: string): (t: Tone)
    ensures t == VerifiedTone <==> s.status == Completed
    ensures t == AccentTone <==> IsPendingSlotOf(s, user)
    ensures t == AccentTone ==> AvatarTone(s, user) == AccentTone
  {
    if s.status == Completed then VerifiedTone
    else if s.signerId == user && s.status == SignatureStatus.Pending then AccentTone
    else MutedTone
  }

  datatype FlowStep = FlowStep(slot: SignatureRequest, chip: Tone, avatar: Tone, arrowAfter: bool)

  datatype SignCard = SignCard(
    doc: Document,
    userSignature: Option<SignatureRequest>,
    isUsersTurn: bool,
    yourTurnBadge: bool,
    waitingForPrevious: bool,
    signEnabled: bool,
    flow: seq<FlowStep>)

  datatype SignPage = SignPage(pendingCount: nat, allCaughtUp: bool, cards: seq<SignCard>)

  /** The signature-flow row of a card: one step per slot, an arrow after
      every step but the last. */
  function Flow(sigs: seq<SignatureRequest>, user: string): (f: seq<FlowStep>)
    ensures |f| == |sigs|
    ensures forall i :: 0 <= i < |f| ==> f[i].slot == sigs[i]
    ensures forall i :: 0 <= i < |f| ==> (f[i].arrowAfter <==> i < |sigs| - 1)
    ensures forall i :: 0 <= i < |f| ==>
      f[i].chip == ChipTone(sigs[i], user) && f[i].avatar == AvatarTone(sigs[i], user)
  {
    seq(|sigs|, i requires 0 <= i < |sigs| =>
      FlowStep(sigs[i], ChipTone(sigs[i], user), AvatarTone(sigs[i], user), i < |sigs| - 1))
  }

  /** One card of the Sign page. The sign button and the "Your Turn" badge
      follow the turn rule; the waiting message shows exactly otherwise. */
  function Card(doc: Document, user: string): (c: SignCard)
    requires AwaitsSignature(doc, user)
    ensures c.doc == doc
    ensures c.isUsersTurn <==> IsUsersTurn(doc.signatures, user)
    ensures c.signEnabled <==> c.isUsersTurn
    ensures c.yourTurnBadge <==> c.signEnabled
    ensures c.waitingForPrevious <==> !c.signEnabled
    ensures c.userSignature == UserSignature(doc.signatures, user)
    ensures c.userSignature.Some? && IsPendingSlotOf(c.userSignature.value, user)
    ensures c.flow == Flow(doc.signatures, user)
    ensures c.signEnabled ==> c.userSignature == Some(doc.signatures[FirstPendingIndex(doc.signatures)])
    ensures |c.flow| == |doc.signatures|
  {
    var turn := IsUsersTurn(doc.signatures, user);
    assert turn ==>
      0 <= FirstPendingIndex(doc.signatures) < |doc.signatures|
      && UserSignature(doc.signatures, user) == Some(doc.signatures[FirstPendingIndex(doc.signatures)]) by {
      if turn {
        TurnMeansFirstPendingSlotIsUsers(doc, user);
      }
    }
    SignCard(doc, UserSignature(doc.signatures, user), turn, turn, !turn, turn,
             Flow(doc.signatures, user))
  }

  /** One card per document, in order. */
  function CardsFor(listed: seq<Document>, user: string): (cs: seq<SignCard>)
    requires forall k :: 0 <= k < |listed| ==> AwaitsSignature(listed[k], user)
    ensures |cs| == |listed|
    ensures forall k :: 0 <= k < |cs| ==> cs[k] == Card(listed[k], user)
    ensures forall k :: 0 <= k < |cs| ==> cs[k].doc == listed[k]
    ensures forall k :: 0 <= k < |cs| ==>
      cs[k].userSignature.Some? && IsPendingSlotOf(cs[k].userSignature.value, user)
  {
    seq(|listed|, k requires 0 <= k < |listed| => Card(listed[k], user))
  }

  /** The Sign page: one card per listed document, in order; the counter
      passed to the layout is the number of cards, and "All Caught Up!" shows
      exactly when no document awaits the user. */
  function SignPageFor(docs: seq<Document>, user: string): (p: SignPage)
    ensures p.pendingCount == |p.cards| == |PendingDocs(docs, user)|
    ensures forall k :: 0 <= k < |p.cards| ==>
      AwaitsSignature(PendingDocs(docs, user)[k], user) && p.cards[k] == Card(PendingDocs(docs, user)[k], user)
    ensures forall k :: 0 <= k < |p.cards| ==> p.cards[k].doc == PendingDocs(docs, user)[k]
    ensures p.allCaughtUp <==> |p.cards| == 0
    ensures forall k :: 0 <= k < |p.cards| ==>
      p.cards[k].userSignature.Some? && IsPendingSlotOf(p.cards[k].userSignature.value, user)
  {
    var listed := PendingDocs(docs, user);
    ListedDocsAwait(docs, user);
    var cards := CardsFor(listed, user);
    SignPage(|listed|, |listed| == 0, cards)
  }

  // ---- The dashboard panel ----

  datatype PanelCard = PanelCard(
    doc: Document,
    userSignature: Option<SignatureRequest>,
    otherSigners: seq<SignatureRequest>,
    avatars: seq<Tone>)

  /** The "Awaiting Your Signature" panel: an empty-state card, or a badge
      with the count and one card per listed document. */
  datatype Panel = EmptyState | Listing(badge: nat, cards: seq<PanelCard>)

  /** `otherSigners`: the slots of everyone but `user`, in order. */
  function OtherSigners(sigs: seq<SignatureRequest>, user: string): (r: seq<SignatureRequest>)
    ensures IsSubsequence(r, sigs)
    ensures forall s :: s in r <==> s in sigs && s.signerId != user
    ensures |r| + |Filter(sigs, SlotOf(user))| == |sigs|
  {
    var r := Filter(sigs, NotSlotOf(user));
    FilterPartition(sigs, NotSlotOf(user), SlotOf(user));
    r
  }

  function PanelCardFor(doc: Document, user: string): (c: PanelCard)
    requires AwaitsSignature(doc, user)
    ensures c.doc == doc
    ensures c.userSignature == UserSignature(doc.signatures, user)
    ensures c.userSignature.Some? && IsPendingSlotOf(c.userSignature.value, user)
    ensures c.otherSigners == OtherSigners(doc.signatures, user)
    ensures |c.avatars| == |doc.signatures|
    ensures forall i :: 0 <= i < |c.avatars| ==> c.avatars[i] == AvatarTone(doc.signatures[i], user)
  {
    PanelCard(doc, UserSignature(doc.signatures, user), OtherSigners(doc.signatures, user),
              seq(|doc.signatures|, i requires 0 <= i < |doc.signatures| => AvatarTone(doc.signatures[i], user)))
  }

  /** The panel shows the empty state exactly when no document awaits the
      user; otherwise its badge counts the cards, which follow the listing. */
  function PanelFor(docs: seq<Document>, user: string): (p: Panel)
    ensures p.EmptyState? <==> |PendingDocs(docs, user)| == 0
    ensures p.Listing? ==> p.badge == |p.cards| == |PendingDocs(docs, user)| > 0
    ensures p.Listing? ==> forall k :: 0 <= k < |p.cards| ==>
      AwaitsSignature(PendingDocs(docs, user)[k], user) && p.cards[k] == PanelCardFor(PendingDocs(docs, user)[k], user)
    ensures p.Listing? ==> forall k :: 0 <= k < |p.cards| ==> p.cards[k].doc == PendingDocs(docs, user)[k]
  {
    var listed := PendingDocs(docs, user);
    ListedDocsAwait(docs, user);
    if |listed| == 0 then EmptyState
    else
      Listing(|listed|, seq(|listed|, k requires 0 <= k < |listed| => PanelCardFor(listed[k], user)))
  }

  /** "All Caught Up!" on the Sign page and the panel's empty state both
      show exactly when no document awaits the user; otherwise the panel's
      badge equals the page's counter. */
  lemma EmptyStatesAgree(docs: seq<Document>, user: string)
    ensures SignPageFor(docs, user).allCaughtUp <==> forall d :: d in docs ==> !AwaitsSignature(d, user)
    ensures PanelFor(docs, user).EmptyState? <==> forall d :: d in docs ==> !AwaitsSignature(d, user)
    ensures PanelFor(docs, user).Listing? ==>
      PanelFor(docs, user).badge == SignPageFor(docs, user).pendingCount
  {
    NothingListedIffNoneAwaits(docs, user);
  }
}

=== FILE: text.dfy ===
/** The string operations the components rely on: ASCII upper-casing,
    JavaScript's `trim`, `split`/`join` on a single character, and the
    decimal rendering of a non-negative integer. Strings are `seq<char>`. */
module Text {

  predicate IsLowerAscii(c: char) { 'a' <= c <= 'z' }

  predicate IsDigit(c: char) { '0' <= c <= '9' }

  /** `toUpperCase` restricted to ASCII: lower-case letters move to upper
      case, every other character is left alone. */
  function ToUpperAscii(c: char): (r: char)
    ensures IsLowerAscii(c) ==> 'A' <= r <= 'Z' && r as int == c as int - 32
    ensures !IsLowerAscii(c) ==> r == c
    ensures r == '_' <==> c == '_'
    ensures r == ' ' <==> c == ' '
  {
    if IsLowerAscii(c) then (c as int - 32) as char else c
  }

  predicate IsUpperAscii(c: char) { 'A' <= c <= 'Z' }

  /** `toLowerCase` restricted to ASCII; it undoes `ToUpperAscii` on every
      character that is not already an upper-case letter. */
  function ToLowerAscii(c: char): (r: char)
    ensures IsUpperAscii(c) ==> r as int == c as int + 32
    ensures !IsUpperAscii(c) ==> r == c
    ensures !IsUpperAscii(c) ==> ToLowerAscii(ToUpperAscii(c)) == c
  {
    if IsUpperAscii(c) then (c as int + 32) as char else c
  }

  /** `word.charAt(0).toUpperCase() + word.slice(1)`. */
  function Capitalize(w: string): (r: string)
    ensures |r| == |w|
    ensures |w| > 0 ==> r[0] == ToUpperAscii(w[0]) && r[1..] == w[1..]
  {
    if |w| == 0 then "" else [ToUpperAscii(w[0])] + w[1..]
  }

  /** The characters `String.prototype.trim` removes: the ASCII white space
      and line terminators, NBSP, BOM and the Unicode space separators. */
  predicate IsWhitespace(c: char) {
    c == ' ' || c == '\t' || c == '\n' || c == '\r'
    || c as int == 0x0B || c as int == 0x0C || c as int == 0xA0
    || c as int == 0x1680 || 0x2000 <= c as int <= 0x200A
    || c as int == 0x2028 || c as int == 0x2029 || c as int == 0x202F
    || c as int == 0x205F || c as int == 0x3000 || c as int == 0xFEFF
  }

  function TrimStart(s: string): (r: string)
    ensures |r| > 0 ==> !IsWhitespace(r[0])
    ensures |r| <= |s| && r == s[|s| - |r|..]
    ensures forall i :: 0 <= i < |s| - |r| ==> IsWhitespace(s[i])
  {
    if |s| > 0 && IsWhitespace(s[0]) then TrimStart(s[1..]) else s
  }

  function TrimEnd(s: string): (r: string)
    ensures r <= s
    ensures |r| > 0 ==> !IsWhitespace(r[|r| - 1])
    ensures forall i :: |r| <= i < |s| ==> IsWhitespace(s[i])
  {
    if |s| > 0 && IsWhitespace(s[|s| - 1]) then TrimEnd(s[..|s| - 1]) else s
  }

  /** `r` sits in `s` at offset `k` with only white space around it. */
  predicate TrimmedAt(r: string, s: string, k: int) {
    && 0 <= k <= |s| - |r|
    && s[k..k + |r|] == r
    && (forall i :: 0 <= i < k ==> IsWhitespace(s[i]))
    && (forall i :: k + |r| <= i < |s| ==> IsWhitespace(s[i]))
  }

  /** `String.prototype.trim`: the contiguous middle of `s` left once the
      white space at both ends is removed. */
  function Trim(s: string): (r: string)
    ensures |r| <= |s|
    ensures exists k :: TrimmedAt(r, s, k)
    ensures |r| > 0 ==> !IsWhitespace(r[0]) && !IsWhitespace(r[|r| - 1])
    ensures r == "" <==> forall i :: 0 <= i < |s| ==> IsWhitespace(s[i])
  {
    var t := TrimStart(s);
    var r := TrimEnd(t);
    TrimmedAtOffset(s, t, r);
    r
  }

  /** A suffix `t` of `s` preceded only by white space, cut down to a
      prefix `r` followed only by white space, sits in `s` trimmed. */
  lemma TrimmedAtOffset(s: string, t: string, r: string)
    requires |t| <= |s| && t == s[|s| - |t|..]
    requires forall i :: 0 <= i < |s| - |t| ==> IsWhitespace(s[i])
    requires r <= t
    requires forall i :: |r| <= i < |t| ==> IsWhitespace(t[i])
    ensures TrimmedAt(r, s, |s| - |t|)
  {
    var k := |s| - |t|;
    assert r == s[k..][..|r|];
    assert r == s[k..k + |r|];
    assert forall i :: k + |r| <= i < |s| ==> s[i] == t[i - k];
  }

  /** `s.split(sep)` for a one-character separator: the pieces between
      separators, including empty ones at the ends and between adjacent
      separators, so there is always at least one piece. */
  function Split(s: string, sep: char): (r: seq<string>)
    ensures |r| == Count(s, sep) + 1
    ensures forall k :: 0 <= k < |r| ==> sep !in r[k]
    ensures Join(r, sep) == s
  {
    if |s| == 0 then [""]
    else
      var rest := Split(s[1..], sep);
      if s[0] == sep then
        assert ([""] + rest)[1..] == rest;
        [""] + rest
      else
        var r := [[s[0]] + rest[0]] + rest[1..];
        JoinConsHead(s[0], rest[0], rest[1..], sep);
        assert [rest[0]] + rest[1..] == rest;
        r
  }

  /** `words.join(sep)`. */
  function Join(words: seq<string>, sep: char): (r: string)
    ensures |words| == 1 ==> r == words[0]
  {
    if |words| == 0 then ""
    else if |words| == 1 then words[0]
    else words[0] + [sep] + Join(words[1..], sep)
  }

  /** The number of occurrences of `c` in `s`. */
  function Count(s: string, c: char): (n: nat)
    ensures n <= |s|
    ensures n == 0 <==> c !in s
  {
    if |s| == 0 then 0
    else (if s[0] == c then 1 else 0) + Count(s[1..], c)
  }

  /** Prefixing a character to the first word prefixes it to the join. */
  lemma JoinConsHead(c: char, w: string, ws: seq<string>, sep: char)
    ensures Join([[c] + w] + ws, sep) == [c] + Join([w] + ws, sep)
  {
    if |ws| > 0 {
      assert ([[c] + w] + ws)[1..] == ws;
      assert ([w] + ws)[1..] == ws;
    }
  }

  /** Splitting a string that starts with a separator-free word puts that
      word in front of the first piece of the rest. */
  lemma {:induction false} SplitAfterWord(w: string, rest: string, sep: char)
    requires sep !in w
    ensures Split(w + rest, sep) == [w + Split(rest, sep)[0]] + Split(rest, sep)[1..]
  {
    var r := Split(rest, sep);
    if |w| > 0 {
      var t := w[1..] + rest;
      assert (w + rest)[0] == w[0];
      assert (w + rest)[1..] == t;
      var st := Split(t, sep);
      assert Split(w + rest, sep) == [[w[0]] + st[0]] + st[1..];
      SplitAfterWord(w[1..], rest, sep);
      assert st[0] == w[1..] + r[0] && st[1..] == r[1..];
      ConsOntoWord(w, r[0]);
    } else {
      assert w + rest == rest && w + r[0] == r[0];
      assert r == [r[0]] + r[1..];
    }
  }

  lemma ConsOntoWord(w: string, tail: string)
    requires |w| > 0
    ensures [w[0]] + (w[1..] + tail) == w + tail
  {
    assert [w[0]] + w[1..] == w;
  }

  /** Joining words that do not contain the separator and splitting the
      result gives the words back: the other half of the round trip whose
      first half `Split` states. */
  lemma {:induction false} SplitOfJoin(words: seq<string>, sep: char)
    requires |words| > 0
    requires forall k :: 0 <= k < |words| ==> sep !in words[k]
    ensures Split(Join(words, sep), sep) == words
  {
    if |words| == 1 {
      SplitAfterWord(words[0], "", sep);
      assert words[0] + "" == words[0];
    } else {
      var rest := Join(words[1..], sep);
      SplitOfJoin(words[1..], sep);
      assert Join(words, sep) == words[0] + ([sep] + rest);
      SplitAfterWord(words[0], [sep] + rest, sep);
      assert ([sep] + rest)[1..] == rest;
      assert ([sep] + rest)[0] == sep;
      assert Split([sep] + rest, sep) == [""] + words[1..];
      assert ([""] + words[1..])[0] == "" && ([""] + words[1..])[1..] == words[1..];
      assert words[0] + "" == words[0];
      assert [words[0]] + words[1..] == words;
    }
  }

  /** Two strings that hold `x` and `y` at exactly the same positions hold
      them equally often. */
  lemma {:induction false} CountPointwise(a: string, b: string, x: char, y: char)
    requires |a| == |b|
    requires forall i :: 0 <= i < |a| ==> (a[i] == x <==> b[i] == y)
    ensures Count(a, x) == Count(b, y)
  {
    if |a| > 0 {
      CountPointwise(a[1..], b[1..], x, y);
    }
  }

  /** The decimal digits of `n`, most significant first, without leading
      zeros: what JavaScript prints for a non-negative integer. */
  function DecimalDigits(n: nat): (r: string)
    ensures |r| > 0
    ensures forall i :: 0 <= i < |r| ==> IsDigit(r[i])
    ensures |r| > 1 ==> r[0] != '0'
    decreases n
  {
    if n < 10 then [DigitChar(n)]
    else DecimalDigits(n / 10) + [DigitChar(n % 10)]
  }

  function DigitChar(d: nat): (c: char)
    requires d < 10
    ensures IsDigit(c) && c as int - '0' as int == d
  {
    ('0' as int + d) as char
  }

  /** The value of a string of decimal digits. */
  function ParseDecimal(s: string): (n: nat)
    requires forall i :: 0 <= i < |s| ==> IsDigit(s[i])
  {
    if |s| == 0 then 0
    else 10 * ParseDecimal(s[..|s| - 1]) + DigitValue(s[|s| - 1])
  }

  function DigitValue(c: char): (d: nat)
    requires IsDigit(c)
    ensures d < 10
  {
    c as int - '0' as int
  }

  /** Reading the printed digits back gives the number printed. */
  lemma {:induction false} DecimalRoundTrip(n: nat)
    ensures ParseDecimal(DecimalDigits(n)) == n
    decreases n
  {
    var r := DecimalDigits(n);
    if n >= 10 {
      DecimalRoundTrip(n / 10);
      assert r[..|r| - 1] == DecimalDigits(n / 10);
    }
  }
}

=== FILE: types.dfy ===
/** The data model of the system (src/types/adsms.ts): the closed
    enumerations, each with its wire string and a parser that inverts it, and
    the records every component ranges over. `Date` values are opaque
    timestamps; the model never inspects them. */
module Types {
  import opened Optional

  /** Milliseconds since the epoch; only ever carried, never computed with. */
  type Timestamp = int

  datatype UserRole = Admin | Faculty | Staff | Student

  datatype DocumentStatus = Draft | Pending | Signed | Rejected | Expired

  /** A signature slot never has a draft or signed status: it is pending
      until it is completed, rejected or expired. */
  datatype SignatureStatus = Pending | Completed | Rejected | Expired

  /** The one set of values both `User.certificateStatus` and
      `Certificate.status` range over. */
  datatype CertificateStatus = Active | Expired | Pending | Revoked

  datatype DocumentType =
    | Certificate | Transcript | Marksheet | ProjectApproval
    | BonafideLetter | AdministrativeForm | Other

  datatype AuditAction =
    | DocumentUploaded | DocumentViewed | DocumentDownloaded | DocumentDeleted
    | SignatureRequested | SignatureCompleted | SignatureRejected
    | UserLogin | UserLogout | UserCreated | UserUpdated
    | CertificateIssued | CertificateRevoked | SystemConfigChanged

  datatype ResourceType = DocumentResource | UserResource | SignatureResource
                        | CertificateResource | SystemResource

  datatype User = User(
    id: string,
    email: string,
    name: string,
    role: UserRole,
    department: Option<string>,
    employeeId: Option<string>,
    studentId: Option<string>,
    certificateStatus: CertificateStatus,
    certificateExpiry: Option<Timestamp>,
    avatar: Option<string>,
    createdAt: Timestamp,
    lastLogin: Option<Timestamp>)

  /** One slot of a document's ordered signer list. */
  datatype SignatureRequest = SignatureRequest(
    id: string,
    documentId: string,
    signerId: string,
    signerName: string,
    signerEmail: string,
    signerRole: UserRole,
    order: int,
    status: SignatureStatus,
    requestedAt: Timestamp,
    signedAt: Option<Timestamp>,
    rejectedAt: Option<Timestamp>,
    rejectionReason: Option<string>,
    signatureData: Option<string>,
    certificateId: Option<string>)

  /** A document with its signature slots in signing order. */
  datatype Document = Document(
    id: string,
    title: string,
    description: Option<string>,
    docType: DocumentType,
    status: DocumentStatus,
    fileName: string,
    fileSize: int,
    uploadedBy: string,
    uploadedAt: Timestamp,
    version: int,
    signatures: seq<SignatureRequest>,
    currentSignerIndex: int,
    completedAt: Option<Timestamp>,
    expiresAt: Option<Timestamp>)

  datatype AuditLog = AuditLog(
    id: string,
    timestamp: Timestamp,
    userId: string,
    userName: string,
    action: AuditAction,
    resourceType: ResourceType,
    resourceId: string,
    details: string,
    ipAddress: Option<string>,
    userAgent: Option<string>)

  datatype Certificate = Certificate(
    id: string,
    userId: string,
    serialNumber: string,
    issuer: string,
    subject: string,
    validFrom: Timestamp,
    validTo: Timestamp,
    status: CertificateStatus,
    publicKey: string,
    fingerprint: string)

  datatype VerificationResult = VerificationResult(
    isValid: bool,
    documentId: string,
    documentTitle: string,
    signedAt: Timestamp,
    signerName: string,
    signerRole: string,
    certificateSerial: string,
    certificateIssuer: string,
    verifiedAt: Timestamp,
    tamperedDetected: bool,
    message: string)

  // ---- Wire strings of the enumerations ----

  function DocumentStatusName(s: DocumentStatus): string
  {
    match s
    case Draft => "draft"
    case Pending => "pending"
    case Signed => "signed"
    case Rejected => "rejected"
    case Expired => "expired"
  }

  /** Reads a document status; exactly the five names are accepted. */
  function ParseDocumentStatus(s: string): (r: Option<DocumentStatus>)
    ensures r.Some? ==> DocumentStatusName(r.value) == s
    ensures forall st :: DocumentStatusName(st) == s ==> r == Some(st)
  {
    if s == "draft" then Some(Draft)
    else if s == "pending" then Some(DocumentStatus.Pending)
    else if s == "signed" then Some(Signed)
    else if s == "rejected" then Some(DocumentStatus.Rejected)
    else if s == "expired" then Some(DocumentStatus.Expired)
    else None
  }

  function SignatureStatusName(s: SignatureStatus): string
  {
    match s
    case Pending => "pending"
    case Completed => "completed"
    case Rejected => "rejected"
    case Expired => "expired"
  }

  /** Reads a signature status; "draft" and "signed" are not among them. */
  function ParseSignatureStatus(s: string): (r: Option<SignatureStatus>)
    ensures r.Some? ==> SignatureStatusName(r.value) == s
    ensures forall st :: SignatureStatusName(st) == s ==> r == Some(st)
    ensures s == "draft" || s == "signed" ==> r.None?
  {
    if s == "pending" then Some(SignatureStatus.Pending)
    else if s == "completed" then Some(Completed)
    else if s == "rejected" then Some(SignatureStatus.Rejected)
    else if s == "expired" then Some(SignatureStatus.Expired)
    else None
  }

  function CertificateStatusName(s: CertificateStatus): string
  {
    match s
    case Active => "active"
    case Expired => "expired"
    case Pending => "pending"
    case Revoked => "revoked"
  }

  function ParseCertificateStatus(s: string): (r: Option<CertificateStatus>)
    ensures r.Some? ==> CertificateStatusName(r.value) == s
    ensures forall st :: CertificateStatusName(st) == s ==> r == Some(st)
  {
    if s == "active" then Some(Active)
    else if s == "expired" then Some(CertificateStatus.Expired)
    else if s == "pending" then Some(CertificateStatus.Pending)
    else if s == "revoked" then Some(Revoked)
    else None
  }

  function DocumentTypeName(t: DocumentType): string
  {
    match t
    case Certificate => "certificate"
    case Transcript => "transcript"
    case Marksheet => "marksheet"
    case ProjectApproval => "project_approval"
    case BonafideLetter => "bonafide_letter"
    case AdministrativeForm => "administrative_form"
    case Other => "other"
  }

  /** Reads a document type; exactly the seven names are accepted. */
  function ParseDocumentType(s: string): (r: Option<DocumentType>)
    ensures r.Some? ==> DocumentTypeName(r.value) == s
    ensures forall t :: DocumentTypeName(t) == s ==> r == Some(t)
  {
    if s == "certificate" then Some(DocumentType.Certificate)
    else if s == "transcript" then Some(Transcript)
    else if s == "marksheet" then Some(Marksheet)
    else if s == "project_approval" then Some(ProjectApproval)
    else if s == "bonafide_letter" then Some(BonafideLetter)
    else if s == "administrative_form" then Some(AdministrativeForm)
    else if s == "other" then Some(Other)
    else None
  }

  function ResourceTypeName(t: ResourceType): string
  {
    match t
    case DocumentResource => "document"
    case UserResource => "user"
    case SignatureResource => "signature"
    case CertificateResource => "certificate"
    case SystemResource => "system"
  }

  /** Reads the kind of resource an audit entry concerns. */
  function ParseResourceType(s: string): (r: Option<ResourceType>)
    ensures r.Some? ==> ResourceTypeName(r.value) == s
    ensures forall t :: ResourceTypeName(t) == s ==> r == Some(t)
  {
    if s == "document" then Some(DocumentResource)
    else if s == "user" then Some(UserResource)
    else if s == "signature" then Some(SignatureResource)
    else if s == "certificate" then Some(CertificateResource)
    else if s == "system" then Some(SystemResource)
    else None
  }

  function UserRoleName(r: UserRole): string
  {
    match r
    case Admin => "admin"
    case Faculty => "faculty"
    case Staff => "staff"
    case Student => "student"
  }

  function ParseUserRole(s: string): (r: Option<UserRole>)
    ensures r.Some? ==> UserRoleName(r.value) == s
    ensures forall role :: UserRoleName(role) == s ==> r == Some(role)
  {
    if s == "admin" then Some(Admin)
    else if s == "faculty" then Some(Faculty)
    else if s == "staff" then Some(Staff)
    else if s == "student" then Some(Student)
    else None
  }

  function AuditActionName(a: AuditAction): string
  {
    match a
    case DocumentUploaded => "document_uploaded"
    case DocumentViewed => "document_viewed"
    case DocumentDownloaded => "document_downloaded"
    case DocumentDeleted => "document_deleted"
    case SignatureRequested => "signature_requested"
    case SignatureCompleted => "signature_completed"
    case SignatureRejected => "signature_rejected"
    case UserLogin => "user_login"
    case UserLogout => "user_logout"
    case UserCreated => "user_created"
    case UserUpdated => "user_updated"
    case CertificateIssued => "certificate_issued"
    case CertificateRevoked => "certificate_revoked"
    case SystemConfigChanged => "system_config_changed"
  }

  /** Reads an audit action; exactly the fourteen names are accepted. */
  function ParseAuditAction(s: string): (r: Option<AuditAction>)
    ensures r.Some? ==> AuditActionName(r.value) == s
    ensures forall a :: AuditActionName(a) == s ==> r == Some(a)
  {
    if s == "document_uploaded" then Some(DocumentUploaded)
    else if s == "document_viewed" then Some(DocumentViewed)
    else if s == "document_downloaded" then Some(DocumentDownloaded)
    else if s == "document_deleted" then Some(DocumentDeleted)
    else if s == "signature_requested" then Some(SignatureRequested)
    else if s == "signature_completed" then Some(SignatureCompleted)
    else if s == "signature_rejected" then Some(SignatureRejected)
    else if s == "user_login" then Some(UserLogin)
    else if s == "user_logout" then Some(UserLogout)
    else if s == "user_created" then Some(UserCreated)
    else if s == "user_updated" then Some(UserUpdated)
    else if s == "certificate_issued" then Some(CertificateIssued)
    else if s == "certificate_revoked" then Some(CertificateRevoked)
    else if s == "system_config_changed" then Some(SystemConfigChanged)
    else None
  }

  /** Every audit action, in declaration order. */
  function AllAuditActions(): seq<AuditAction> {
    [DocumentUploaded, DocumentViewed, DocumentDownloaded, DocumentDeleted,
     SignatureRequested, SignatureCompleted, SignatureRejected,
     UserLogin, UserLogout, UserCreated, UserUpdated,
     CertificateIssued, CertificateRevoked, SystemConfigChanged]
  }

  /** The audit actions form a closed list of fourteen distinct actions,
      distinguished by their names. */
  lemma AuditActionsAreFourteen()
    ensures |AllAuditActions()| == 14
    ensures forall a :: a in AllAuditActions()
    ensures forall i, j :: 0 <= i < j < 14 ==>
      AuditActionName(AllAuditActions()[i]) != AuditActionName(AllAuditActions()[j])
  {
    forall a ensures a in AllAuditActions() {
      match a
      case DocumentUploaded => assert AllAuditActions()[0] == a;
      case DocumentViewed => assert AllAuditActions()[1] == a;
      case DocumentDownloaded => assert AllAuditActions()[2] == a;
      case DocumentDeleted => assert AllAuditActions()[3] == a;
      case SignatureRequested => assert AllAuditActions()[4] == a;
      case SignatureCompleted => assert AllAuditActions()[5] == a;
      case SignatureRejected => assert AllAuditActions()[6] == a;
      case UserLogin => assert AllAuditActions()[7] == a;
      case UserLogout => assert AllAuditActions()[8] == a;
      case UserCreated => assert AllAuditActions()[9] == a;
      case UserUpdated => assert AllAuditActions()[10] == a;
      case CertificateIssued => assert AllAuditActions()[11] == a;
      case CertificateRevoked => assert AllAuditActions()[12] == a;
      case SystemConfigChanged => assert AllAuditActions()[13] == a;
    }
    forall i, j | 0 <= i < j < 14
      ensures AuditActionName(AllAuditActions()[i]) != AuditActionName(AllAuditActions()[j])
    {
      var a, b := AllAuditActions()[i], AllAuditActions()[j];
      assert ParseAuditAction(AuditActionName(a)) == Some(a);
      assert ParseAuditAction(AuditActionName(b)) == Some(b);
    }
  }
}

=== FILE: upload.dfy ===
/** The three-step upload wizard (src/components/documents/DocumentUpload.tsx):
    a PDF-only file slot, the document details, and an ordered list of
    signers without duplicate ids. Each user action is one transition of an
    immutable wizard state; actions on controls the current step does not
    render leave the state unchanged. */
module Upload {
  import opened Optional
  import opened Seqs
  import opened Types
  import Text

  /** A candidate signer, as offered by the wizard. */
  datatype Signer = Signer(id: string, name: string, email: string, role: UserRole)

  /** The users the wizard offers as signers, in display order. */
  function MockUsers(): seq<Signer> {
    [ Signer("user-001", "Dr. Priya Sharma", "dr.sharma@university.edu", Faculty),
      Signer("user-002", "Prof. Rajesh Kumar", "hod.cs@university.edu", Faculty),
      Signer("user-006", "Dr. Anita Verma", "dean@university.edu", Admin),
      Signer("user-007", "Prof. Suresh Iyer", "registrar@university.edu", Admin) ]
  }

  function SignerId(s: Signer): string { s.id }

  function HasIdPred(id: string): Signer -> bool {
    (s: Signer) => s.id == id
  }

  function LacksIdPred(id: string): Signer -> bool {
    (s: Signer) => s.id != id
  }

  /** Some entry of `signers` has id `id`. */
  predicate HasId(signers: seq<Signer>, id: string) {
    exists i :: 0 <= i < |signers| && signers[i].id == id
  }

  /** `signers.find(s => s.id === id)` found something. */
  predicate IsSelected(signers: seq<Signer>, id: string)
    ensures IsSelected(signers, id) <==> HasId(signers, id)
  {
    Find(signers, HasIdPred(id)).Some?
  }

  /** No two entries share an id. */
  predicate DistinctIds(signers: seq<Signer>) {
    DistinctBy(signers, SignerId)
  }

  /** `addSigner`: a signer whose id is already listed is ignored; any other
      signer is appended at the end, so the signing order is the order of
      addition. */
  function AddSigner(signers: seq<Signer>, user: Signer): (r: seq<Signer>)
    ensures signers <= r
    ensures |r| == if HasId(signers, user.id) then |signers| else |signers| + 1
    ensures !HasId(signers, user.id) ==> r[|signers|] == user
    ensures HasId(r, user.id)
    ensures DistinctIds(signers) ==> DistinctIds(r)
  {
    if IsSelected(signers, user.id) then signers
    else
      var r := signers + [user];
      assert r[|signers|].id == user.id;
      r
  }

  /** `removeSigner`: every entry with the given id goes, the others keep
      their relative order; an absent id changes nothing. */
  function RemoveSigner(signers: seq<Signer>, id: string): (r: seq<Signer>)
    ensures IsSubsequence(r, signers)
    ensures forall s :: s in r <==> s in signers && s.id != id
    ensures !HasId(r, id)
    ensures !HasId(signers, id) ==> r == signers
    ensures DistinctIds(signers) ==> DistinctIds(r)
    ensures forall s :: multiset(r)[s] == if s.id != id then multiset(signers)[s] else 0
  {
    FilterCounts(signers, LacksIdPred(id));
    var r := Filter(signers, LacksIdPred(id));
    assert !HasId(r, id) by {
      forall i | 0 <= i < |r|
        ensures r[i].id != id
      {
        assert r[i] in r;
      }
    }
    assert !HasId(signers, id) ==> r == signers by {
      if !HasId(signers, id) {
        FilterKeepsAll(signers, LacksIdPred(id));
      }
    }
    assert DistinctIds(signers) ==> DistinctIds(r) by {
      if DistinctIds(signers) {
        FilterKeepsDistinct(signers, LacksIdPred(id), SignerId);
      }
    }
    r
  }

  /** In a list without duplicate ids, removing the id of entry `i` removes
      exactly that entry. */
  lemma RemoveDeletesOneEntry(signers: seq<Signer>, i: int)
    requires DistinctIds(signers)
    requires 0 <= i < |signers|
    ensures RemoveSigner(signers, signers[i].id) == signers[..i] + signers[i + 1..]
  {
    var p := LacksIdPred(signers[i].id);
    var before, after := signers[..i], signers[i + 1..];
    OnlyEntryWithItsId(signers, i, before, after);
    assert signers == before + [signers[i]] + after;
    FilterDropsOne(before, signers[i], after, p);
  }

  /** With distinct ids, the entries before and after entry `i` all lack
      its id. */
  lemma OnlyEntryWithItsId(signers: seq<Signer>, i: int, before: seq<Signer>, after: seq<Signer>)
    requires DistinctIds(signers)
    requires 0 <= i < |signers|
    requires before == signers[..i] && after == signers[i + 1..]
    ensures forall k :: 0 <= k < |before| ==> before[k].id != signers[i].id
    ensures forall k :: 0 <= k < |after| ==> after[k].id != signers[i].id
  {
    forall k | 0 <= k < |before| ensures before[k].id != signers[i].id {
      assert SignerId(signers[k]) != SignerId(signers[i]);
    }
    forall k | 0 <= k < |after| ensures after[k].id != signers[i].id {
      assert after[k] == signers[i + 1 + k];
      assert SignerId(signers[i]) != SignerId(signers[i + 1 + k]);
    }
  }

  /** Adding a signer that is not listed and then removing it restores the
      list. */
  lemma AddThenRemoveRestores(signers: seq<Signer>, user: Signer)
    requires !HasId(signers, user.id)
    ensures RemoveSigner(AddSigner(signers, user), user.id) == signers
  {
    FilterAppend(signers, [user], LacksIdPred(user.id));
    FilterKeepsAll(signers, LacksIdPred(user.id));
  }

  /** The "Add Signer" buttons: the users not yet selected, in the order
      of `all`. */
  function AvailableUsers(all: seq<Signer>, signers: seq<Signer>): (r: seq<Signer>)
    ensures IsSubsequence(r, all)
    ensures forall u :: u in r <==> u in all && !HasId(signers, u.id)
    ensures forall i, j :: 0 <= i < |r| && 0 <= j < |signers| ==> r[i].id != signers[j].id
  {
    var r := Filter(all, (u: Signer) => !IsSelected(signers, u.id));
    assert forall i, j :: 0 <= i < |r| && 0 <= j < |signers| ==> r[i].id != signers[j].id by {
      forall i, j | 0 <= i < |r| && 0 <= j < |signers|
        ensures r[i].id != signers[j].id
      {
        assert r[i] in r;
      }
    }
    r
  }

  /** Before any signer is chosen every offered user has an "Add Signer"
      button, in the offered order. */
  lemma OfferedUsersBeforeSelection()
    ensures AvailableUsers(MockUsers(), []) == MockUsers()
  {
    NoSelectionOffersAll(MockUsers());
  }

  /** With nothing selected, every user of `all` is offered. */
  lemma NoSelectionOffersAll(all: seq<Signer>)
    ensures AvailableUsers(all, []) == all
  {
    FilterKeepsAll(all, (u: Signer) => !IsSelected([], u.id));
  }

  // ---- The file slot ----

  /** What the wizard keeps of a chosen file. */
  datatype FileInfo = FileInfo(name: string, size: nat, mimeType: string)

  const PdfMime: string := "application/pdf"

  /** `handleDrop` / `handleFileSelect`: the first of the offered files is
      stored only if it is a PDF; otherwise the slot keeps what it had. */
  function AcceptFile(current: Option<FileInfo>, files: seq<FileInfo>): (r: Option<FileInfo>)
    ensures r.Some? && r != current ==> r.value.mimeType == PdfMime
    ensures |files| > 0 && files[0].mimeType == PdfMime ==> r == Some(files[0])
    ensures !(|files| > 0 && files[0].mimeType == PdfMime) ==> r == current
  {
    if |files| > 0 && files[0].mimeType == PdfMime then Some(files[0]) else current
  }

  /** `formatFileSize`: below 1024 the exact count of bytes followed by
      " B"; the kilobyte and megabyte texts carry a one-decimal quotient that
      the model does not compute, so only their unit is kept. */
  datatype SizeText = ExactBytes(text: string) | Kilobytes | Megabytes

  function FormatFileSize(bytes: nat): (r: SizeText)
    ensures r.ExactBytes? <==> bytes < 1024
    ensures r.Kilobytes? <==> 1024 <= bytes < 1024 * 1024
    ensures r.Megabytes? <==> 1024 * 1024 <= bytes
    ensures r.ExactBytes? ==>
      |r.text| > 2 && r.text[|r.text| - 2..] == " B"
      && (forall i :: 0 <= i < |r.text| - 2 ==> Text.IsDigit(r.text[i]))
      && (|r.text| > 3 ==> r.text[0] != '0')
      && Text.ParseDecimal(r.text[..|r.text| - 2]) == bytes
  {
    if bytes < 1024 then
      var digits := Text.DecimalDigits(bytes);
      Text.DecimalRoundTrip(bytes);
      assert (digits + " B")[..|digits|] == digits;
      ExactBytes(digits + " B")
    else if bytes < 1024 * 1024 then Kilobytes
    else Megabytes
  }

  // ---- The wizard ----

  datatype Step = UploadStep | DetailsStep | SignersStep {
    /** The number shown in the progress header. */
    function Number(): (n: int)
      ensures 1 <= n <= 3
    {
      match this
      case UploadStep => 1
      case DetailsStep => 2
      case SignersStep => 3
    }
  }

  datatype Wizard = Wizard(
    file: Option<FileInfo>,
    isDragging: bool,
    title: string,
    description: string,
    docType: DocumentType,
    signers: seq<Signer>,
    step: Step)

  /** The state the component mounts with. */
  function InitialWizard(): Wizard {
    Wizard(None, false, "", "", Other, [], UploadStep)
  }

  /** The user actions the wizard reacts to. */
  datatype Event =
    | DragOver
    | DragLeave
    | DropFiles(dropped: seq<FileInfo>)
    | SelectFiles(selected: seq<FileInfo>)
    | ClearFile
    | EditTitle(newTitle: string)
    | EditDescription(newDescription: string)
    | ChooseType(newType: DocumentType)
    | Continue
    | Back
    | AddSignerClicked(signer: Signer)
    | RemoveSignerClicked(signerId: string)

  /** Step 1's Continue is enabled only once a file is held. */
  predicate CanLeaveUpload(w: Wizard) { w.file.Some? }

  /** Step 2's Continue is enabled only with a non-empty title; a title of
      spaces counts as given. */
  predicate CanLeaveDetails(w: Wizard) { w.title != "" }

  /** "Send for Signatures" is enabled only with at least one signer. */
  predicate SendEnabled(w: Wizard) { |w.signers| > 0 }

  /** What every reachable wizard state satisfies. */
  predicate WizardInvariant(w: Wizard) {
    && (w.file.Some? ==> w.file.value.mimeType == PdfMime)
    && (w.step != UploadStep ==> w.file.Some?)
    && (w.step == SignersStep ==> w.title != "")
    && DistinctIds(w.signers)
  }

  /** One user action. Only Continue and Back move the step, by one at
      most, forward only through an enabled Continue, and every change to the file slot, the details
      or the signer list happens on the step that shows its control. */
  function Apply(w: Wizard, e: Event): (r: Wizard)
    ensures -1 <= r.step.Number() - w.step.Number() <= 1
    ensures r.step.Number() > w.step.Number() ==>
      (w.step == UploadStep && CanLeaveUpload(w)) || (w.step == DetailsStep && CanLeaveDetails(w))
    ensures r.file != w.file ==> w.step == UploadStep && r.step == UploadStep
    ensures r.isDragging != w.isDragging ==> w.step == UploadStep
    ensures r.title != w.title || r.description != w.description || r.docType != w.docType ==>
      w.step == DetailsStep
    ensures r.signers != w.signers ==> w.step == SignersStep
    ensures WizardInvariant(w) ==> WizardInvariant(r)
    // Only the Continue and Back buttons move the step.
    ensures !(e.Continue? || e.Back?) ==> r.step == w.step
    ensures r.step.Number() > w.step.Number() ==> e.Continue?
    ensures e.Back? ==> r.step.Number() <= w.step.Number()
    // What each action does on the step that shows its control.
    ensures e.Continue? && w.step == UploadStep ==> (r.step == DetailsStep <==> CanLeaveUpload(w))
    ensures e.Continue? && w.step == DetailsStep ==> (r.step == SignersStep <==> CanLeaveDetails(w))
    ensures e.Back? && w.step != UploadStep ==> r.step.Number() == w.step.Number() - 1
    ensures w.step == UploadStep && e.DragOver? ==> r.isDragging
    ensures w.step == UploadStep && e.DragLeave? ==> !r.isDragging
    ensures w.step == UploadStep && e.DropFiles? ==> r.file == AcceptFile(w.file, e.dropped) && !r.isDragging
    ensures w.step == UploadStep && e.SelectFiles? && w.file.None? ==> r.file == AcceptFile(w.file, e.selected)
    ensures w.step == UploadStep && e.ClearFile? ==> r.file.None?
    ensures w.step == DetailsStep && e.EditTitle? ==> r.title == e.newTitle
    ensures w.step == DetailsStep && e.EditDescription? ==> r.description == e.newDescription
    ensures w.step == DetailsStep && e.ChooseType? ==> r.docType == e.newType
    ensures w.step == SignersStep && e.AddSignerClicked? ==> r.signers == AddSigner(w.signers, e.signer)
    ensures w.step == SignersStep && e.RemoveSignerClicked? ==> r.signers == RemoveSigner(w.signers, e.signerId)
  {
    if IsFileAction(e) then FileAction(w, e)
    else if IsDetailsAction(e) then DetailsAction(w, e)
    else if IsSignerAction(e) then SignerAction(w, e)
    else Navigate(w, e)
  }

  /** The actions on the file slot, whose controls only step 1 shows. */
  predicate IsFileAction(e: Event) {
    e.DragOver? || e.DragLeave? || e.DropFiles? || e.SelectFiles? || e.ClearFile?
  }

  /** The edits of step 2's fields. */
  predicate IsDetailsAction(e: Event) {
    e.EditTitle? || e.EditDescription? || e.ChooseType?
  }

  /** The buttons of step 3's signer list. */
  predicate IsSignerAction(e: Event) {
    e.AddSignerClicked? || e.RemoveSignerClicked?
  }

  /** Step 1: the drag highlight and the file slot change; nothing else. */
  function FileAction(w: Wizard, e: Event): (r: Wizard)
    requires IsFileAction(e)
    ensures r == w.(file := r.file, isDragging := r.isDragging)
    ensures w.step != UploadStep ==> r == w
    ensures r.file.Some? && r.file != w.file ==> r.file.value.mimeType == PdfMime
    ensures w.step == UploadStep && e.DragOver? ==> r.isDragging
    ensures w.step == UploadStep && e.DragLeave? ==> !r.isDragging
    ensures w.step == UploadStep && e.DropFiles? ==> r.file == AcceptFile(w.file, e.dropped) && !r.isDragging
    ensures w.step == UploadStep && e.SelectFiles? && w.file.None? ==> r.file == AcceptFile(w.file, e.selected)
    ensures w.step == UploadStep && e.ClearFile? ==> r.file.None?
  {
    if w.step != UploadStep then w
    else
      match e
      case DragOver => w.(isDragging := true)
      case DragLeave => w.(isDragging := false)
      case DropFiles(files) => w.(isDragging := false, file := AcceptFile(w.file, files))
      case SelectFiles(files) => if w.file.None? then w.(file := AcceptFile(w.file, files)) else w
      case ClearFile => w.(file := None)
  }

  /** Step 2: the title, description and type change; nothing else. */
  function DetailsAction(w: Wizard, e: Event): (r: Wizard)
    requires IsDetailsAction(e)
    ensures r == w.(title := r.title, description := r.description, docType := r.docType)
    ensures w.step != DetailsStep ==> r == w
    ensures w.step == DetailsStep && e.EditTitle? ==> r.title == e.newTitle
    ensures w.step == DetailsStep && e.EditDescription? ==> r.description == e.newDescription
    ensures w.step == DetailsStep && e.ChooseType? ==> r.docType == e.newType
  {
    if w.step != DetailsStep then w
    else
      match e
      case EditTitle(t) => w.(title := t)
      case EditDescription(d) => w.(description := d)
      case ChooseType(t) => w.(docType := t)
  }

  /** Step 3: the signer list changes; nothing else. */
  function SignerAction(w: Wizard, e: Event): (r: Wizard)
    requires IsSignerAction(e)
    ensures r == w.(signers := r.signers)
    ensures w.step != SignersStep ==> r == w
    ensures w.step == SignersStep && e.AddSignerClicked? ==> r.signers == AddSigner(w.signers, e.signer)
    ensures w.step == SignersStep && e.RemoveSignerClicked? ==> r.signers == RemoveSigner(w.signers, e.signerId)
    ensures DistinctIds(w.signers) ==> DistinctIds(r.signers)
  {
    if w.step != SignersStep then w
    else
      match e
      case AddSignerClicked(signer) => w.(signers := AddSigner(w.signers, signer))
      case RemoveSignerClicked(id) => w.(signers := RemoveSigner(w.signers, id))
  }

  /** Continue and Back: only the step changes. */
  function Navigate(w: Wizard, e: Event): (r: Wizard)
    requires e.Continue? || e.Back?
    ensures r == w.(step := r.step)
    ensures e.Continue? && w.step == UploadStep ==> (r.step == DetailsStep <==> CanLeaveUpload(w))
    ensures e.Continue? && w.step == DetailsStep ==> (r.step == SignersStep <==> CanLeaveDetails(w))
    ensures e.Continue? && w.step == SignersStep ==> r == w
    ensures e.Continue? && r != w ==> r.step.Number() == w.step.Number() + 1
    ensures e.Back? && w.step != UploadStep ==> r.step.Number() == w.step.Number() - 1
    ensures e.Back? ==> r.step.Number() <= w.step.Number()
  {
    if e.Continue? then
      if w.step == UploadStep && CanLeaveUpload(w) then w.(step := DetailsStep)
      else if w.step == DetailsStep && CanLeaveDetails(w) then w.(step := SignersStep)
      else w
    else
      if w.step == DetailsStep then w.(step := UploadStep)
      else if w.step == SignersStep then w.(step := DetailsStep)
      else w
  }

  /** The state after a sequence of actions from the initial state. */
  function Run(events: seq<Event>): Wizard {
    if |events| == 0 then InitialWizard()
    else Apply(Run(events[..|events| - 1]), events[|events| - 1])
  }

  /** Whatever the user does, the held file is a PDF, steps 2 and 3 are
      reached only with a file, step 3 only with a title, and the signer
      ids stay pairwise distinct. */
  lemma {:induction false} RunKeepsInvariant(events: seq<Event>)
    ensures WizardInvariant(Run(events))
  {
    if |events| > 0 {
      RunKeepsInvariant(events[..|events| - 1]);
    }
  }

  /** When "Send for Signatures" is enabled on a reachable step 3, the
      wizard holds a PDF, a title and a non-empty, duplicate-free signer
      list. */
  lemma SendRequiresCompleteWizard(events: seq<Event>)
    requires Run(events).step == SignersStep
    requires SendEnabled(Run(events))
    ensures Run(events).file.Some? && Run(events).file.value.mimeType == PdfMime
    ensures Run(events).title != ""
    ensures |Run(events).signers| >= 1 && DistinctIds(Run(events).signers)
  {
    RunKeepsInvariant(events);
  }
}

=== FILE: verification.dfy ===
/** The document verification panel
    (src/components/verification/VerificationPanel.tsx): the input, the
    verify button and its guard, the simulated check that always reports an
    authentic document, and the result card. The 1.5-second wait is modelled
    as two events, the click and the timer firing, with the identifier the
    click handler captured carried between them. */
module Verification {
  import opened Optional
  import opened Types
  import opened Text

  /** The panel's state. `inFlight` is the identifier the running handler
      captured when it was clicked; it is not a React state variable but the
      closure waiting on the timer. */
  datatype PanelState = PanelState(
    documentId: string,
    isVerifying: bool,
    result: Option<VerificationResult>,
    inFlight: Option<string>)

  function InitialPanel(): PanelState {
    PanelState("", false, None, None)
  }

  /** `new Date('2024-01-12')`: midnight UTC, in milliseconds. */
  const MockSignedAt: Timestamp := 1705017600000

  /** The fixed result of the simulated check, for the identifier typed, at
      time `now`. */
  function MockResult(documentId: string, now: Timestamp): (r: VerificationResult)
    ensures r.isValid && !r.tamperedDetected
    ensures r.documentId == documentId
    ensures r.verifiedAt == now
  {
    VerificationResult(
      true, documentId, "B.Tech Degree Certificate - Aarav Patel", MockSignedAt,
      "Prof. Suresh Iyer", "Registrar", "CERT-2024-00156",
      "University Certificate Authority", now, false,
      "This document is authentic and has not been modified since signing.")
  }

  /** Whether the input holds nothing but white space. */
  predicate IsBlank(s: string) {
    Trim(s) == ""
  }

  /** The verify button is disabled while a check runs or while the input
      is blank. */
  predicate VerifyDisabled(st: PanelState) {
    st.isVerifying || IsBlank(st.documentId)
  }

  /** The first half of `handleVerify`: a blank input returns at once;
      otherwise the check starts with the identifier as typed, untrimmed.
      An earlier result stays on screen while the check runs. */
  function BeginVerify(st: PanelState): (r: PanelState)
    ensures IsBlank(st.documentId) ==> r == st
    ensures !IsBlank(st.documentId) ==>
      r.isVerifying && r.inFlight == Some(st.documentId)
      && r.documentId == st.documentId && r.result == st.result
  {
    if IsBlank(st.documentId) then st
    else st.(isVerifying := true, inFlight := Some(st.documentId))
  }

  /** The second half, once the timer fires at `now`: the result for the
      captured identifier replaces any earlier one and the check ends. The
      input is left as the user has it now. */
  function FinishVerify(st: PanelState, now: Timestamp): (r: PanelState)
    ensures st.inFlight.None? ==> r == st
    ensures st.inFlight.Some? ==>
      r.result == Some(MockResult(st.inFlight.value, now))
      && !r.isVerifying && r.inFlight.None? && r.documentId == st.documentId
  {
    match st.inFlight
    case None => st
    case Some(id) => st.(isVerifying := false, result := Some(MockResult(id, now)), inFlight := None)
  }

  /** What can happen to the panel: typing, clicking the button, and the
      pending timer firing. */
  datatype PanelEvent = Edit(text: string) | Click | TimerFires(now: Timestamp)

  /** One event. A click on a disabled button does nothing; the input is
      never disabled. */
  function Step(st: PanelState, e: PanelEvent): (r: PanelState)
    ensures e.Edit? ==> r == st.(documentId := e.text)
    ensures e.Click? && VerifyDisabled(st) ==> r == st
    ensures e.Click? && !VerifyDisabled(st) ==> r == BeginVerify(st) && r.isVerifying
    ensures e.TimerFires? ==> r == FinishVerify(st, e.now)
  {
    match e
    case Edit(text) => st.(documentId := text)
    case Click => if VerifyDisabled(st) then st else BeginVerify(st)
    case TimerFires(now) => FinishVerify(st, now)
  }

  /** The events in order, oldest first. */
  function Run(st: PanelState, events: seq<PanelEvent>): PanelState
    decreases |events|
  {
    if |events| == 0 then st else Run(Step(st, events[0]), events[1..])
  }

  /** What always holds of the panel: a check runs exactly while a handler
      waits, the waiting handler holds a non-blank identifier, and any
      result shown is valid, untampered and for a non-blank identifier. */
  predicate PanelInvariant(st: PanelState) {
    && (st.isVerifying <==> st.inFlight.Some?)
    && (st.inFlight.Some? ==> !IsBlank(st.inFlight.value))
    && (st.result.Some? ==>
          st.result.value.isValid && !st.result.value.tamperedDetected
          && !IsBlank(st.result.value.documentId))
  }

  /** Every event keeps the invariant. */
  lemma StepKeepsInvariant(st: PanelState, e: PanelEvent)
    requires PanelInvariant(st)
    ensures PanelInvariant(Step(st, e))
  {
  }

  /** From the initial panel, whatever the user does, the invariant holds. */
  lemma {:induction false} RunKeepsInvariant(st: PanelState, events: seq<PanelEvent>)
    requires PanelInvariant(st)
    ensures PanelInvariant(Run(st, events))
    decreases |events|
  {
    if |events| > 0 {
      StepKeepsInvariant(st, events[0]);
      RunKeepsInvariant(Step(st, events[0]), events[1..]);
    }
  }

  /** The result card. */
  datatype ResultCard = ResultCard(heading: string, message: string, showIntactBanner: bool, verifiedStyle: bool)

  /** The heading reads "Document Verified" for a valid result and
      "Verification Failed" otherwise; the intact-document banner shows only
      when no tampering was detected. */
  function ResultCardFor(r: VerificationResult): (c: ResultCard)
    ensures c.heading == "Document Verified" <==> r.isValid
    ensures c.heading == "Verification Failed" <==> !r.isValid
    ensures c.verifiedStyle <==> r.isValid
    ensures c.showIntactBanner <==> !r.tamperedDetected
    ensures c.message == r.message
  {
    ResultCard(if r.isValid then "Document Verified" else "Verification Failed",
               r.message, !r.tamperedDetected, r.isValid)
  }

  /** The card shown, if any. */
  function PanelCard(st: PanelState): (c: Option<ResultCard>)
    ensures c.Some? <==> st.result.Some?
    ensures c.Some? ==> c.value == ResultCardFor(st.result.value)
  {
    match st.result
    case None => None
    case Some(r) => Some(ResultCardFor(r))
  }

  /** The failure card is unreachable: after any events from the initial
      panel, a card on screen says "Document Verified" and shows the intact
      banner. */
  lemma FailureNeverShown(events: seq<PanelEvent>)
    ensures var c := PanelCard(Run(InitialPanel(), events));
      c.Some? ==> c.value.heading == "Document Verified" && c.value.showIntactBanner
  {
    RunKeepsInvariant(InitialPanel(), events);
  }

  /** The result names the identifier as it was when the button was
      clicked, untrimmed, even if the input changes before the timer
      fires. */
  lemma ResultKeepsClickedIdentifier(typed: string, later: string, now: Timestamp)
    requires !IsBlank(typed)
    ensures var clicked := Step(Step(InitialPanel(), Edit(typed)), Click);
      var st := Step(Step(clicked, Edit(later)), TimerFires(now));
      clicked.isVerifying && st.result == Some(MockResult(typed, now))
      && st.documentId == later && !st.isVerifying
  {
  }

  /** A blank identifier, however much white space it holds, starts no
      check; an identifier with surrounding spaces starts one and is
      reported as typed. */
  lemma BlankAndPaddedInputs(now: Timestamp)
    ensures BeginVerify(InitialPanel().(documentId := " \t ")) == InitialPanel().(documentId := " \t ")
    ensures FinishVerify(BeginVerify(InitialPanel().(documentId := " DOC-1 ")), now).result
         == Some(MockResult(" DOC-1 ", now))
  {
    var blank := " \t ";
    assert forall i :: 0 <= i < |blank| ==> IsWhitespace(blank[i]);
    var padded := " DOC-1 ";
    assert !IsWhitespace(padded[1]);
  }
}
